=== FILE: README.md ===
# Shoose storefront: the cart and catalog logic in Dafny

Shoose is a client-side shoe storefront. Its few pieces of real logic live inside React
components. This project states them as pure Dafny functions over immutable values and proves
what the components promise:

- the cart kept in browser storage under the key `"shooseCart"`: a list of `{product, quantity}`
  lines with at most one line per product id;
- the two add-to-cart buttons: the collection grid adds one unit, the detail page adds the
  stepper's quantity, and both merge by product id;
- the cart page's quantity change and removal, and the subtotal, 10% tax and total shared by the
  cart and checkout pages;
- the collection page's category and price filters and its price sort;
- the checkout page's card-number formatter, its form handlers, and the removal of the cart once
  an order completes;
- the header badge that counts items;
- the hero carousel's slide index and title split;
- the favourites toggle.

Browser storage becomes a value, `Stored = Missing | Corrupt | Saved(items)`. `Missing` stands
for no entry and also for the empty string, which the code treats as falsy. `Corrupt` stands for
an entry that `JSON.parse` rejects. A component that writes the cart returns the new `Stored`.
A component that reads it takes a `Stored`. Every timer (`setTimeout`, `setInterval`) becomes an
explicit step: `AnimationEnd`, `CompleteOrder`, `RemoveAfterDelay`.

Catalog prices are whole dollars, so money is exact in cents. The subtotal is `100·S` cents, the
tax is `10·S` cents and the total is `110·S` cents, where `S` is the sum of price × quantity in
dollars. The catalog is a parameter of every function that uses it. Where a lemma needs ids to
be keys, it requires distinct ids.

Modules follow the components:

| file | module | component |
|---|---|---|
| wrappers.dfy | Wrappers | `Option` |
| sequences.dfy | Sequences | filter, join, sums, subsequences |
| cart_model.dfy | CartModel | `Product`, `CartItem`, stored cart, merge-add, sums |
| collection.dfy | Collection | Collection.tsx |
| product_detail.dfy | ProductDetail | ProductDetail.tsx, with `parseInt` |
| shopping_cart.dfy | ShoppingCart | ShoppingCart.tsx |
| checkout.dfy | Checkout | CheckoutPage.tsx |
| cart_icon.dfy | CartIcon | CartIcon.tsx |
| hero_carousel.dfy | HeroCarousel | HeroCarousel.tsx |
| trending_shoes.dfy | TrendingShoes | TrendingShoes.tsx |

Three behaviours of the code are worth stating up front:

- `MergeAdd` accepts any quantity. Only the stepper, and the constant 1 on the collection grid,
  keep the quantity positive (`PressesStayPositive`, `MergeAddKeepsPositive`).
- The code never handles a failed storage write, so in the model a write always succeeds.
- The badge keeps its previous count on a corrupt entry instead of reading it as empty
  (`CartIcon.UpdateCartCount`).

## Model

| member | source | states |
|---|---|---|
| CartModel.Load | src/app/components/ShoppingCart.tsx:42-53 | A parsed entry is read as its list of lines. A missing or unparseable entry is read as the empty cart. |
| CartModel.FindIndex | src/app/components/Collection.tsx:183-185 | Returns -1 exactly when no line has the id. Otherwise it returns the first line with that id: every earlier line has a different id. |
| CartModel.MergeAdd | src/app/components/ProductDetail.tsx:195-206 | If the id is present, the length is unchanged. The first line with that id keeps its product and gains `quantity`, and every other line is unchanged. If the id is absent, the new line is appended after the old lines. |
| CartModel.ComputeTotals | src/app/components/ShoppingCart.tsx:62-68 | The subtotal is 100 cents per dollar of price × quantity. The tax is exactly a tenth of the subtotal. The total is subtotal + tax. |
| CartModel.MergeAddKeepsUniqueIds | src/app/components/Collection.tsx:183-196 | A cart with at most one line per product id keeps that property after an add. |
| CartModel.MergeAddKeepsPositive | src/app/components/ProductDetail.tsx:196-206 | Adding a quantity of at least 1 keeps every line's quantity at least 1. |
| CartModel.MergeAddQuantityOf | src/app/components/ProductDetail.tsx:196-206 | The total ordered of the added product rises by exactly `quantity`. The total of every other product is unchanged. |
| CartModel.MergeAddLineCount | src/app/components/Collection.tsx:183-193 | An add never creates a second line for a product. It creates the first line when none exists. |
| CartModel.MergeAddItemCount | src/app/components/Collection.tsx:187-193 | An add of `quantity` raises the sum of quantities by exactly `quantity`. |
| CartModel.MergeAddSubtotal | src/app/components/ShoppingCart.tsx:62-65 | When the stored snapshots match the catalog entry, an add raises the subtotal by price × quantity. |
| CartModel.AddAllOneLine | src/app/components/ProductDetail.tsx:195-206 | Any run of adds of one product leaves a single line for it. That line's quantity is the sum of the added quantities on top of what was there. |
| CartModel.SubtotalAppend | src/app/components/ShoppingCart.tsx:62-65 | The subtotal and the item count of two concatenated carts are the sums of their parts. |
| CartModel.UniqueIdsLineCount | src/app/components/Collection.tsx:183-193 | A cart with unique ids has at most one line for any id. |
| Collection.AddToCart | src/app/components/Collection.tsx:169-196 | The grid's button always writes a cart. An absent product is appended with quantity 1 after the existing lines. A present product leaves the length unchanged. A missing or corrupt entry becomes a one-line cart. |
| Collection.AddToCartPresent | src/app/components/Collection.tsx:183-190 | For a product already in the cart, the length stays the same, that line's quantity rises by exactly 1, and every other line is unchanged. |
| Collection.AddToCartKeepsUniqueIds | src/app/components/Collection.tsx:183-196 | A stored cart with one line per product keeps that property after the grid's add, and its item count rises by 1. |
| Collection.Insert | src/app/components/Collection.tsx:246-250 | Insertion adds exactly the new element: the result holds the old elements and `x`, each as often as before. |
| Collection.InsertSorted | src/app/components/Collection.tsx:246-250 | Inserting into a list sorted in the chosen direction gives a list sorted in that direction. |
| Collection.SortedCons | src/app/components/Collection.tsx:246-250 | A sorted list stays sorted under a new head that may precede every element. |
| Collection.HeadPrecedesAll | src/app/components/Collection.tsx:246-250 | An element that may precede `x` and every element of a list may precede every element of any permutation of that list plus `x`. |
| Collection.SortBy | src/app/components/Collection.tsx:246-250 | The result is a permutation of the input. Its prices are non-decreasing for low-to-high and non-increasing for high-to-low. |
| Collection.FilteredMatches | src/app/components/Collection.tsx:229-243 | The two filters keep exactly the products of the selected category (any category for "All") whose price lies within the inclusive bounds. Each is kept as often as it occurs, in catalog order. |
| Collection.ApplyFilters | src/app/components/Collection.tsx:228-252 | A product is in the result if and only if it is in the catalog and matches the category and the inclusive price range. The result is a permutation of the matching products. With no sort it is an order-preserving subsequence of the catalog; otherwise it is sorted by price in the chosen direction. |
| Collection.BoundaryPricesMatchTwoRanges | src/app/components/Collection.tsx:147-153 | Because both bounds are inclusive, a price of 600, 800 or 1000 falls into two of the named ranges. |
| ProductDetail.TrimStart | src/app/components/ProductDetail.tsx:165 | Skips exactly the leading white space: every skipped character is white space, and the result is the rest of the input, which does not start with white space. |
| ProductDetail.DigitPrefix | src/app/components/ProductDetail.tsx:165 | Returns the longest prefix made of digits of the radix: every character in it is a digit, and the next character is not. |
| ProductDetail.MagnitudeOfNatToString | src/app/components/ProductDetail.tsx:165 | The unsigned part of `parseInt` reads the decimal digits of a natural number back as that number: they contain no "0x" prefix and end where the digits end. |
| ProductDetail.NoLeadingSpace | src/app/components/ProductDetail.tsx:165 | Text that starts with a minus sign or a digit has no white space for `parseInt` to skip. |
| ProductDetail.ParseNegative | src/app/components/ProductDetail.tsx:165 | A minus sign followed by the digits of n parses to -n. |
| ProductDetail.ParseNonNegative | src/app/components/ProductDetail.tsx:165 | The digits of n parse to n. |
| ProductDetail.ParseInt | src/app/components/ProductDetail.tsx:165 | Blank text, and text whose first non-blank character is not a sign or a decimal digit, parse to `NaN` (None). The rest of `parseInt` is stated by the contracts of the functions `TrimStart` and `DigitPrefix` and by the lemma `ParseIntOfIntToString`. |
| ProductDetail.ParseIntOfIntToString | src/app/components/ProductDetail.tsx:163-166 | `parseInt` of the decimal text of any integer id returns that id. |
| ProductDetail.FindProduct | src/app/components/ProductDetail.tsx:166 | A found product is a catalog entry with the requested id. Nothing is found exactly when no entry has that id. |
| ProductDetail.FindProductOfMember | src/app/components/ProductDetail.tsx:166 | With distinct ids, looking up a catalog entry's id finds that entry. |
| ProductDetail.LoadProduct | src/app/components/ProductDetail.tsx:163-172 | When the `id` parameter is non-empty, `parseInt` reads a number from it (also from text such as " 3", "03", "3abc" or "0x3"), and some catalog entry has that id, a catalog entry with that id is loaded. In every other case the product stays as it was. |
| ProductDetail.LoadProductFromLink | src/app/components/ProductDetail.tsx:163-172 | With distinct ids, the `id` a product's link carries loads exactly that product. |
| ProductDetail.Decrement | src/app/components/ProductDetail.tsx:315 | The "-" button never goes below 1: above 1 it subtracts one, otherwise it gives 1. |
| ProductDetail.Increment | src/app/components/ProductDetail.tsx:324 | The "+" button adds exactly one. |
| ProductDetail.PressesStayPositive | src/app/components/ProductDetail.tsx:315-324 | From any quantity of at least 1, any sequence of stepper presses leaves a quantity of at least 1. |
| ProductDetail.StepperStaysPositive | src/app/components/ProductDetail.tsx:154 | From the stepper's initial 1, whatever is pressed, the quantity handed to add-to-cart is at least 1. |
| ProductDetail.HandleAddToCart | src/app/components/ProductDetail.tsx:180-209 | With no product loaded, nothing is written. Otherwise a cart is written: an absent product is appended with the selected quantity, and a present one leaves the length unchanged. |
| ProductDetail.HandleAddToCartQuantities | src/app/components/ProductDetail.tsx:196-206 | The add raises the product's total by the selected quantity. An existing line keeps its product and gains exactly that quantity, and every other line is unchanged. |
| ProductDetail.HandleAddToCartOverCorrupt | src/app/components/ProductDetail.tsx:184-193 | A corrupt stored cart is replaced by a cart holding only the new line. |
| ProductDetail.HandleAddToCartKeepsInvariant | src/app/components/ProductDetail.tsx:195-206 | With a positive quantity, a stored cart of unique ids and positive quantities keeps both properties. |
| ShoppingCart.UpdateQuantity | src/app/components/ShoppingCart.tsx:76-81 | Below 1 the cart is unchanged. Otherwise every line of the id gets the new quantity and keeps its product, and all other lines, the length and the order are unchanged. |
| ShoppingCart.RemoveItem | src/app/components/ShoppingCart.tsx:97 | No line of the id remains. A line is kept if and only if it has another id, and every such line is kept as often as it occurs. The result is an order-preserving subsequence. Removing an absent id changes nothing. |
| ShoppingCart.UpdateQuantityKeepsInvariant | src/app/components/ShoppingCart.tsx:79-81 | Unique ids and positive quantities are preserved. |
| ShoppingCart.UpdateQuantityQuantityOf | src/app/components/ShoppingCart.tsx:79-81 | The updated product's total becomes quantity × its number of lines. Every other product's total is unchanged. |
| ShoppingCart.UpdateQuantityItemCount | src/app/components/ShoppingCart.tsx:79-81 | On a cart with unique ids, the badge count changes by the new quantity minus the old one. |
| ShoppingCart.RemoveItemKeepsInvariant | src/app/components/ShoppingCart.tsx:97 | Unique ids and positive quantities are preserved by removal. |
| ShoppingCart.RemoveItemQuantities | src/app/components/ShoppingCart.tsx:97 | The removed product's total drops to 0, and the item count drops by that product's total. Every other product's total is unchanged. |
| ShoppingCart.Mount | src/app/components/ShoppingCart.tsx:40-53 | The page shows what a fresh load reads: a missing or corrupt entry shows an empty cart. |
| ShoppingCart.ChangeQuantity | src/app/components/ShoppingCart.tsx:76-85 | A new quantity below 1 changes nothing. Any other quantity is applied to the page's lines as `UpdateQuantity` applies it and saved, and the page stays in step with storage. |
| ShoppingCart.RemoveAfterDelay | src/app/components/ShoppingCart.tsx:88-101 | A removal that applies to the lines held when its timer fires shows and saves exactly those lines minus the ones with that id. The result is a subsequence of those lines. |
| ShoppingCart.RemovalsAccumulate | src/app/components/ShoppingCart.tsx:88-101 | Two such removals leave neither product and every other product's total unchanged, with the page in step with storage. |
| ShoppingCart.RemoveAfterDelayAsWritten | src/app/components/ShoppingCart.tsx:96-100 | The code's removal filters the list captured at click time, whatever the page holds when the timer fires. |
| ShoppingCart.StaleRemovalResurrectsLine | src/app/components/ShoppingCart.tsx:96-100 | Removing two lines within the delay brings the first line back. |
| ShoppingCart.PageTotals | src/app/components/ShoppingCart.tsx:61-73 | The summary is computed from the lines shown, and an empty cart gives all zeros. |
| Checkout.GroupedLayout | src/app/components/CheckoutPage.tsx:142-147 | Grouping digits in fours and joining them with spaces puts a space exactly at every fifth position and never at the end. A run of n digits gives n + (n-1)/4 characters. |
| Checkout.GroupedFilter | src/app/components/CheckoutPage.tsx:142-147 | Taking the spaces back out of the grouped string restores the digits, in order. |
| Checkout.FormatCardNumber | src/app/components/CheckoutPage.tsx:136-151 | An input with fewer than 4 digits is returned as typed. The layout, digits and idempotence of the formatted case are stated by `FormatManyDigits` and `FormatIdempotent`. |
| Checkout.FormatFewDigits | src/app/components/CheckoutPage.tsx:137-150 | An input with fewer than 4 digits is returned unchanged. |
| Checkout.FormatManyDigits | src/app/components/CheckoutPage.tsx:137-147 | With at least 4 digits, the output consists of groups of 4 digits with a last group of 1 to 4, joined by single spaces, at most 19 characters. Removing the spaces gives the first min(16, n) digits of the input. |
| Checkout.FormatIdempotent | src/app/components/CheckoutPage.tsx:136-151 | Formatting an already formatted value returns it unchanged. |
| Checkout.FormExtensionality | src/app/components/CheckoutPage.tsx:33-54 | A form is determined by its seventeen text fields and its payment method. |
| Checkout.HandleInputChange | src/app/components/CheckoutPage.tsx:125-133 | The named field takes the typed value. Every other field and the payment method are unchanged. |
| Checkout.HandleInputChangeUnique | src/app/components/CheckoutPage.tsx:125-133 | The handler is the only update that sets the named field to the typed value and keeps every other field and the payment method. |
| Checkout.HandleInputChangeSameValue | src/app/components/CheckoutPage.tsx:125-133 | Re-entering a field's current value leaves the form identical. |
| Checkout.HandleCardNumberChange | src/app/components/CheckoutPage.tsx:154-160 | The card number takes the formatted input. Every other field and the payment method are unchanged. |
| Checkout.HandlePaymentMethodChange | src/app/components/CheckoutPage.tsx:163-170 | Only the payment method changes. |
| Checkout.Mount | src/app/components/CheckoutPage.tsx:92-102 | The order summary lists the same lines the cart page would show. The form starts blank with "United States" and card payment. |
| Checkout.SummaryTotals | src/app/components/CheckoutPage.tsx:110-122 | The summary uses the cart page's formula: 100 cents per dollar of price × quantity, a tax of a tenth of that, and their sum. An empty summary has all-zero totals. |
| Checkout.SummaryMatchesCartPage | src/app/components/CheckoutPage.tsx:110-122 | For the same stored cart, checkout shows the same subtotal, tax and total as the cart page. |
| Checkout.Submit | src/app/components/CheckoutPage.tsx:173-175 | Submitting starts the processing state and changes nothing else. |
| Checkout.CompleteOrder | src/app/components/CheckoutPage.tsx:178-183 | When processing ends, the order is complete and the stored cart is removed, so a load reads an empty cart. |
| Checkout.CheckoutEmptiesCart | src/app/components/CheckoutPage.tsx:178-183 | After a completed order, the cart page shows nothing with zero totals. The next time the badge reads storage, its count is 0 and it is hidden. |
| CartIcon.UpdateCartCount | src/app/components/CartIcon.tsx:30-50 | A parsed cart sets the count to its sum of quantities. A missing entry sets it to 0. A corrupt entry changes nothing. The bounce starts if and only if the new count is strictly greater. |
| CartIcon.AnimationEnd | src/app/components/CartIcon.tsx:40 | The bounce ends and the count stays. |
| CartIcon.ItemCountPositive | src/app/components/CartIcon.tsx:35 | With positive quantities, the sum of quantities is at least the number of lines. |
| CartIcon.MountBouncesIffNonEmpty | src/app/components/CartIcon.tsx:25-54 | The count taken on mount starts from an empty badge, so it bounces exactly when the stored cart has a line. |
| CartIcon.ShowBadge | src/app/components/CartIcon.tsx:73 | The badge is rendered for a positive count. The predicate has no contract of its own; `BadgeShownIffNonEmpty` states what it means for a stored cart. |
| CartIcon.BadgeShownIffNonEmpty | src/app/components/CartIcon.tsx:73 | For a stored cart of positive lines, the badge is shown if and only if the cart has a line. |
| CartIcon.AddMakesBadgeBounce | src/app/components/CartIcon.tsx:37-43 | A badge in step with storage counts up by the added quantity and bounces after a positive add. |
| HeroCarousel.NextSlide | src/app/components/HeroCarousel.tsx:64-69 | Ignored while animating. Otherwise the index moves to the next slide, wrapping the last slide to 0, and the animation starts. |
| HeroCarousel.PrevSlide | src/app/components/HeroCarousel.tsx:71-78 | Ignored while animating. Otherwise the index moves to the slide before, wrapping 0 to the last slide, 4, and the animation starts. |
| HeroCarousel.AnimationEnd | src/app/components/HeroCarousel.tsx:68 | The buttons are re-enabled and the index stays. |
| HeroCarousel.SelectSlide | src/app/components/HeroCarousel.tsx:198-201 | A dot jumps to its slide without touching the animation flag. |
| HeroCarousel.OperationsKeepValid | src/app/components/HeroCarousel.tsx:61-78 | The carousel starts on slide 0. Next, previous, animation end and dot selection all keep the index within [0, 5). |
| HeroCarousel.NextPrevInverse | src/app/components/HeroCarousel.tsx:64-78 | Once the transition is over, previous undoes next and next undoes previous. |
| HeroCarousel.AdvanceIndex | src/app/components/HeroCarousel.tsx:80-86 | n auto-advances move the index n slides forward modulo 5, and five of them return to the start. |
| HeroCarousel.Split | src/app/components/HeroCarousel.tsx:129 | `split(" ")` always returns at least one word, and no word contains a space. |
| HeroCarousel.JoinSplit | src/app/components/HeroCarousel.tsx:129 | Joining the split words with single spaces gives the name back. |
| HeroCarousel.SplitJoin | src/app/components/HeroCarousel.tsx:129 | Splitting words that contain no space after joining them gives the words back. |
| HeroCarousel.TitleSpans | src/app/components/HeroCarousel.tsx:129-157 | There is one span per word, and span i holds word i followed by a space unless it is the last. Words at even indices (the first, third, …) are solid and the others are outlined. |
| HeroCarousel.TitleSpellsName | src/app/components/HeroCarousel.tsx:129-158 | The title's spans, each word followed by a space except the last, spell the product name exactly. |
| TrendingShoes.ToggleFavorite | src/app/components/TrendingShoes.tsx:78-84 | A present id is removed everywhere and an absent id is appended at the end. No other id changes membership. |
| TrendingShoes.ToggleTwiceMembership | src/app/components/TrendingShoes.tsx:78-84 | Toggling the same id twice restores exactly which ids are favourites. |
| TrendingShoes.ToggleTwiceRestores | src/app/components/TrendingShoes.tsx:79-82 | For an id that was not a favourite, toggling twice gives back the very same list. |
| TrendingShoes.ToggleKeepsNoDuplicates | src/app/components/TrendingShoes.tsx:78-84 | A favourites list without duplicates stays without duplicates. |

## Findings

| source | as written | input that shows it | evidently intended | confidence | as-written member | corrected member |
|---|---|---|---|---|---|---|
| src/app/components/ShoppingCart.tsx:96-100 | The 300 ms removal callback filters the `cartItems` captured when the trash button was clicked. It then saves that list, overwriting anything that happened in the meantime. | A cart holding A and B: remove A, then remove B within 300 ms. The second callback saves `[A, B]` minus B, so A comes back, on the page and in storage. | Each removal applies to the cart as it is when the removal takes effect, for example through `setCartItems(items => items.filter(...))`. Both lines end up removed. | medium; not executed | ShoppingCart.RemoveAfterDelayAsWritten, ShoppingCart.StaleRemovalResurrectsLine | ShoppingCart.RemoveAfterDelay, ShoppingCart.RemovalsAccumulate |

The same stale list also drops a quantity change made during the delay. The page functions of
the model (`ShoppingCart.RemoveAfterDelay`) use the corrected removal.

## Left out

- JSX rendering, CSS classes, framer-motion and every timer duration. Only the resulting state
  changes are modelled, as explicit steps.
- `JSON.parse` and `JSON.stringify`. Storage is the value `Missing | Corrupt | Saved(items)`.
  Well-formed JSON of the wrong shape, such as `"null"` or an object, is not modelled; the code
  would fail on it later.
- The `storage` and `cartUpdated` window events (CartIcon.tsx:56-64), together with cross-tab
  behaviour. They are event plumbing: the model states what the badge shows the next time it
  reads storage, not when that happens. Only the detail page's add (ProductDetail.tsx:212)
  dispatches `cartUpdated`. Four writers do not: the collection grid's add (Collection.tsx:196),
  the cart page's quantity change (ShoppingCart.tsx:84) and removal (ShoppingCart.tsx:99), and
  the checkout's removal of the cart (CheckoutPage.tsx:182). The header badge (Header.tsx:131) is
  on those pages, so after any of those writes it keeps its stale count until it next reads
  storage.
- Floating-point money and `toFixed(2)`. Prices are whole dollars, so the cent amounts are exact.
- Product ratings are kept as tenths (`ratingTenths`) and no logic reads them.
- Routing, `useSearchParams` and `useRouter`. The `id` query parameter is an `Option<string>`
  argument of `ProductDetail.LoadProduct`.
- The static product, description, carousel and trending tables are parameters, not constants.
  The carousel has `SlideCount` = 5 slides.
- Browser-enforced input attributes (`required`, `maxLength`) and form validation.
- The presentational components About, Contact, Footer, FeaturedBanner, Header and Categories,
  and the home page.
- ProductDetail.ParseInt: does not model the loss of precision for digit strings beyond 2^53,
  or the distinction between -0 and 0, because catalog ids are small integers.
- Collection.SortBy, Collection.ApplyFilters: the sort is stable, like `Array.prototype.sort`,
  but stability is not stated, so the order of equal prices after sorting is left open.
  Only sortedness and permutation are proved.

=== FILE: cart_icon.dfy ===
/**
 The cart icon in the header: it recounts the stored cart on mount and on every change signal,
 bounces when the count went up, and shows a badge while the count is positive.
 */
module CartIcon {
  import opened CartModel

  /** The icon's state: the count shown and whether the bounce animation is running. */
  datatype BadgeState = BadgeState(itemCount: int, isAnimating: bool)

  const InitialBadge: BadgeState := BadgeState(0, false)

  /** The new state and whether this update started the bounce. */
  datatype BadgeUpdate = BadgeUpdate(state: BadgeState, bounce: bool)

  /**
   `updateCartCount`: a parsed cart sets the count to its sum of quantities, bouncing only on a
   strict increase; no entry sets it to 0; an unparseable entry changes nothing.
   */
  function UpdateCartCount(badge: BadgeState, stored: Stored): (r: BadgeUpdate)
    ensures r.bounce <==> stored.Saved? && ItemCount(stored.items) > badge.itemCount
    ensures r.state.isAnimating == (badge.isAnimating || r.bounce)
    ensures stored.Saved? ==> r.state.itemCount == ItemCount(stored.items)
    ensures stored.Missing? ==> r.state.itemCount == 0
    ensures stored.Corrupt? ==> r.state == badge
  {
    match stored
    case Saved(items) =>
      var count := ItemCount(items);
      var bounce := count > badge.itemCount;
      BadgeUpdate(BadgeState(count, badge.isAnimating || bounce), bounce)
    case Missing => BadgeUpdate(badge.(itemCount := 0), false)
    case Corrupt => BadgeUpdate(badge, false)
  }

  /** The end of the 500 ms bounce. */
  function AnimationEnd(badge: BadgeState): (r: BadgeState)
    ensures !r.isAnimating && r.itemCount == badge.itemCount
  {
    badge.(isAnimating := false)
  }

  /** The badge is rendered only for a positive count. */
  predicate ShowBadge(itemCount: int)
  {
    itemCount > 0
  }

  /** With positive quantities the count is never negative, and it is positive for a non-empty cart. */
  lemma {:induction false} ItemCountPositive(cart: Cart)
    requires PositiveQuantities(cart)
    ensures ItemCount(cart) >= |cart|
    decreases |cart|
  {
    if |cart| > 0 {
      ItemCountPositive(cart[1..]);
    }
  }

  /** A stored cart of positive lines shows the badge exactly when it has a line. */
  lemma BadgeShownIffNonEmpty(badge: BadgeState, items: Cart)
    requires PositiveQuantities(items)
    ensures ShowBadge(UpdateCartCount(badge, Saved(items)).state.itemCount) <==> |items| > 0
  {
    ItemCountPositive(items);
  }

  /** When the icon was in step with storage, a positive add makes it count up and bounce. */
  lemma AddMakesBadgeBounce(badge: BadgeState, cart: Cart, product: Product, quantity: int)
    requires badge.itemCount == ItemCount(cart)
    requires quantity >= 1
    ensures var r := UpdateCartCount(badge, Saved(MergeAdd(cart, product, quantity)));
      r.bounce && r.state.itemCount == badge.itemCount + quantity
  {
    MergeAddItemCount(cart, product, quantity);
  }

  /** The first count on mount starts from an empty badge: it bounces exactly for a non-empty cart. */
  lemma MountBouncesIffNonEmpty(items: Cart)
    requires PositiveQuantities(items)
    ensures UpdateCartCount(InitialBadge, Saved(items)).bounce <==> |items| > 0
  {
    ItemCountPositive(items);
  }
}

=== FILE: cart_model.dfy ===
/**
 The cart data model every component of the storefront shares: the `Product` and `CartItem`
 interfaces, the value kept in browser storage under the key "shooseCart", the merge-by-id add
 used by both add-to-cart buttons, and the sums the cart, checkout and badge display.
 */
module CartModel {
  import opened Sequences

  /** A catalog entry. Prices in the catalog are whole dollars; the rating is kept in tenths. */
  datatype Product = Product(
    id: int,
    name: string,
    price: nat,
    category: string,
    ratingTenths: nat,
    image: string,
    isNew: bool,
    isFeatured: bool)

  /** `CartItem`: an embedded product snapshot and a quantity. */
  datatype LineItem = LineItem(product: Product, quantity: int)

  type Cart = seq<LineItem>

  /**
   The value read from browser storage: no entry (or the empty string, which the source treats as
   falsy), an entry that `JSON.parse` rejects, or a parsed list of line items.
   */
  datatype Stored = Missing | Corrupt | Saved(items: Cart)

  /** Every read of the cart: a missing or unparseable entry is the empty cart. */
  function Load(stored: Stored): (cart: Cart)
    ensures stored.Saved? ==> cart == stored.items
    ensures !stored.Saved? ==> cart == []
  {
    if stored.Saved? then stored.items else []
  }

  predicate HasId(cart: Cart, id: int)
  {
    exists i :: 0 <= i < |cart| && cart[i].product.id == id
  }

  function ProductId(line: LineItem): int { line.product.id }

  /** The cart invariant: at most one line per product id. */
  predicate UniqueIds(cart: Cart)
  {
    DistinctKeys(cart, ProductId)
  }

  predicate PositiveQuantities(cart: Cart)
  {
    forall i :: 0 <= i < |cart| ==> cart[i].quantity >= 1
  }

  /** `cart.findIndex(item => item.product.id === id)`: the first line with that id, or -1. */
  function FindIndex(cart: Cart, id: int): (k: int)
    ensures -1 <= k < |cart|
    ensures k == -1 <==> !HasId(cart, id)
    ensures k >= 0 ==> cart[k].product.id == id
    ensures k >= 0 ==> forall j :: 0 <= j < k ==> cart[j].product.id != id
    decreases |cart|
  {
    if |cart| == 0 then -1
    else if cart[0].product.id == id then 0
    else
      var k := FindIndex(cart[1..], id);
      if k == -1 then -1 else k + 1
  }

  /**
   Add-or-merge: a product already in the cart has the quantity of its first line raised by
   `quantity` (the line keeps its embedded product snapshot); otherwise a new line is appended.
   */
  function MergeAdd(cart: Cart, product: Product, quantity: int): (r: Cart)
    ensures HasId(cart, product.id) ==> |r| == |cart|
    ensures HasId(cart, product.id) ==>
      var k := FindIndex(cart, product.id);
      && r[k].product == cart[k].product
      && r[k].quantity == cart[k].quantity + quantity
      && forall j :: 0 <= j < |cart| && j != k ==> r[j] == cart[j]
    ensures !HasId(cart, product.id) ==> r == cart + [LineItem(product, quantity)]
  {
    var k := FindIndex(cart, product.id);
    if k >= 0 then cart[k := cart[k].(quantity := cart[k].quantity + quantity)]
    else cart + [LineItem(product, quantity)]
  }

  // ---------------------------------------------------------------------------------------------
  // Sums

  function Quantity(line: LineItem): int { line.quantity }

  function LineTotal(line: LineItem): int { line.product.price * line.quantity }

  /** The quantity a line contributes to product `id`. */
  function QuantityFor(id: int): LineItem -> int
  {
    (line: LineItem) => if line.product.id == id then line.quantity else 0
  }

  /** One for every line of product `id`. */
  function LineFor(id: int): LineItem -> int
  {
    (line: LineItem) => if line.product.id == id then 1 else 0
  }

  /** The badge count: the sum of the quantities of all lines. */
  function ItemCount(cart: Cart): int { SumOf(cart, Quantity) }

  /** The sum of price times quantity over all lines, in dollars. */
  function Subtotal(cart: Cart): int { SumOf(cart, LineTotal) }

  /** The total quantity ordered of product `id`, over however many lines carry it. */
  function QuantityOf(cart: Cart, id: int): int { SumOf(cart, QuantityFor(id)) }

  /** How many lines carry product `id`. */
  function LineCount(cart: Cart, id: int): int { SumOf(cart, LineFor(id)) }

  /**
   The order summary in cents. Prices are whole dollars, so 10% tax is a whole number of cents
   and no rounding is involved.
   */
  datatype Totals = Totals(subtotalCents: int, taxCents: int, totalCents: int)

  function ComputeTotals(cart: Cart): (t: Totals)
    ensures t.subtotalCents == 100 * Subtotal(cart)
    ensures 10 * t.taxCents == t.subtotalCents
    ensures t.totalCents == t.subtotalCents + t.taxCents
  {
    var dollars := Subtotal(cart);
    Totals(100 * dollars, 10 * dollars, 110 * dollars)
  }

  // ---------------------------------------------------------------------------------------------
  // Properties

  lemma {:induction false} LineCountZeroIffAbsent(cart: Cart, id: int)
    ensures LineCount(cart, id) >= 0
    ensures LineCount(cart, id) == 0 <==> !HasId(cart, id)
    decreases |cart|
  {
    if |cart| > 0 {
      LineCountZeroIffAbsent(cart[1..], id);
      if cart[0].product.id != id {
        if HasId(cart, id) {
          var i :| 0 <= i < |cart| && cart[i].product.id == id;
          assert cart[1..][i - 1].product.id == id;
        }
      }
      assert HasId(cart[1..], id) ==> HasId(cart, id) by {
        if HasId(cart[1..], id) {
          var i :| 0 <= i < |cart[1..]| && cart[1..][i].product.id == id;
          assert cart[i + 1].product.id == id;
        }
      }
    }
  }

  /** A cart with unique ids has at most one line for any id. */
  lemma {:induction false} UniqueIdsLineCount(cart: Cart, id: int)
    requires UniqueIds(cart)
    ensures LineCount(cart, id) <= 1
    decreases |cart|
  {
    if |cart| > 0 {
      assert UniqueIds(cart[1..]) by {
        forall i, j | 0 <= i < j < |cart[1..]|
          ensures cart[1..][i].product.id != cart[1..][j].product.id
        {
          assert cart[1..][i] == cart[i + 1] && cart[1..][j] == cart[j + 1];
        }
      }
      UniqueIdsLineCount(cart[1..], id);
      if cart[0].product.id == id {
        forall i | 0 <= i < |cart[1..]| ensures cart[1..][i].product.id != id {
          assert cart[1..][i] == cart[i + 1];
        }
        LineCountZeroIffAbsent(cart[1..], id);
      }
    }
  }

  /** Adding keeps the one-line-per-id invariant. */
  lemma MergeAddKeepsUniqueIds(cart: Cart, product: Product, quantity: int)
    requires UniqueIds(cart)
    ensures UniqueIds(MergeAdd(cart, product, quantity))
  {
  }

  /** Adding a positive quantity keeps every quantity at least 1. */
  lemma MergeAddKeepsPositive(cart: Cart, product: Product, quantity: int)
    requires PositiveQuantities(cart)
    requires quantity >= 1
    ensures PositiveQuantities(MergeAdd(cart, product, quantity))
  {
  }

  /**
   Adding `quantity` of a product raises the total ordered for that product by exactly
   `quantity` and leaves the total for every other product unchanged.
   */
  lemma MergeAddQuantityOf(cart: Cart, product: Product, quantity: int, id: int)
    ensures QuantityOf(MergeAdd(cart, product, quantity), id)
         == QuantityOf(cart, id) + (if id == product.id then quantity else 0)
  {
    var k := FindIndex(cart, product.id);
    if k >= 0 {
      SumOfUpdate(cart, k, cart[k].(quantity := cart[k].quantity + quantity), QuantityFor(id));
    } else {
      SumOfAppend(cart, [LineItem(product, quantity)], QuantityFor(id));
    }
  }

  /** Adding never creates a second line for a product; it creates the first one if needed. */
  lemma MergeAddLineCount(cart: Cart, product: Product, quantity: int)
    ensures LineCount(MergeAdd(cart, product, quantity), product.id)
         == if HasId(cart, product.id) then LineCount(cart, product.id) else 1
  {
    var k := FindIndex(cart, product.id);
    if k >= 0 {
      SumOfUpdate(cart, k, cart[k].(quantity := cart[k].quantity + quantity), LineFor(product.id));
    } else {
      SumOfAppend(cart, [LineItem(product, quantity)], LineFor(product.id));
      LineCountZeroIffAbsent(cart, product.id);
    }
  }

  /** Adding `quantity` raises the badge count by exactly `quantity`. */
  lemma MergeAddItemCount(cart: Cart, product: Product, quantity: int)
    ensures ItemCount(MergeAdd(cart, product, quantity)) == ItemCount(cart) + quantity
  {
    var k := FindIndex(cart, product.id);
    if k >= 0 {
      SumOfUpdate(cart, k, cart[k].(quantity := cart[k].quantity + quantity), Quantity);
    } else {
      SumOfAppend(cart, [LineItem(product, quantity)], Quantity);
    }
  }

  /** Every line of `product.id` carries the catalog's product record itself. */
  predicate SnapshotsMatch(cart: Cart, product: Product)
  {
    forall i :: 0 <= i < |cart| && cart[i].product.id == product.id ==> cart[i].product == product
  }

  /** With up-to-date snapshots, adding raises the subtotal by price times quantity. */
  lemma MergeAddSubtotal(cart: Cart, product: Product, quantity: int)
    requires SnapshotsMatch(cart, product)
    ensures Subtotal(MergeAdd(cart, product, quantity)) == Subtotal(cart) + product.price * quantity
  {
    var k := FindIndex(cart, product.id);
    if k >= 0 {
      SumOfUpdate(cart, k, cart[k].(quantity := cart[k].quantity + quantity), LineTotal);
    } else {
      SumOfAppend(cart, [LineItem(product, quantity)], LineTotal);
    }
  }

  /** Adding the quantities `qs` of one product, one add at a time. */
  function AddAll(cart: Cart, product: Product, qs: seq<int>): Cart
    decreases |qs|
  {
    if |qs| == 0 then cart else AddAll(MergeAdd(cart, product, qs[0]), product, qs[1..])
  }

  /**
   Any number of adds of the same product leave at most one line for it, holding the sum of the
   added quantities on top of what was there.
   */
  lemma {:induction false} AddAllOneLine(cart: Cart, product: Product, qs: seq<int>)
    requires LineCount(cart, product.id) <= 1
    ensures LineCount(AddAll(cart, product, qs), product.id)
         == if |qs| == 0 then LineCount(cart, product.id) else 1
    ensures QuantityOf(AddAll(cart, product, qs), product.id) == QuantityOf(cart, product.id) + SumOf(qs, Identity)
    decreases |qs|
  {
    if |qs| > 0 {
      var next := MergeAdd(cart, product, qs[0]);
      MergeAddLineCount(cart, product, qs[0]);
      MergeAddQuantityOf(cart, product, qs[0], product.id);
      LineCountZeroIffAbsent(cart, product.id);
      AddAllOneLine(next, product, qs[1..]);
      if |qs| > 1 {
        LineCountZeroIffAbsent(next, product.id);
      }
    }
  }

  /** The sums distribute over concatenation, the way the line-by-line `reduce` adds up. */
  lemma SubtotalAppend(a: Cart, b: Cart)
    ensures Subtotal(a + b) == Subtotal(a) + Subtotal(b)
    ensures ItemCount(a + b) == ItemCount(a) + ItemCount(b)
  {
    SumOfAppend(a, b, LineTotal);
    SumOfAppend(a, b, Quantity);
  }
}

=== FILE: checkout.dfy ===
/**
 The checkout page: the card-number formatter, the form-field handlers, the order summary and
 the submit that, once the simulated processing is over, removes the stored cart.
 */
module Checkout {
  import opened Sequences
  import opened CartModel
  import ShoppingCart
  import CartIcon
  import ProductDetail

  // ---------------------------------------------------------------------------------------------
  // Card-number formatting

  /** A decimal digit: the digits `parseInt` reads in base 10. */
  predicate IsDigit(c: char) { ProductDetail.IsRadixDigit(c, 10) }

  predicate IsNotSpace(c: char) { c != ' ' }

  /** `value.replace(/\s+/g, "").replace(/[^0-9]/gi, "")`: the digits of `value`, in order. */
  function DigitsOf(s: string): string { Filter(s, IsDigit) }

  /** The output with its spaces taken out. */
  function WithoutSpaces(s: string): string { Filter(s, IsNotSpace) }

  function Min(a: int, b: int): int { if a < b then a else b }

  /**
   The first match of `/\d{4,16}/g` in a string of digits: its first 16 digits, or all of them,
   when there are at least 4; no match ("") otherwise.
   */
  function FirstMatch(digits: string): string
  {
    if |digits| < 4 then "" else digits[..Min(16, |digits|)]
  }

  /** The loop pushing `match.substring(i, i + 4)` for i = 0, 4, 8, ... */
  function Groups(s: string): seq<string>
    decreases |s|
  {
    if |s| == 0 then []
    else if |s| <= 4 then [s]
    else [s[..4]] + Groups(s[4..])
  }

  /** `formatCardNumber`. */
  function FormatCardNumber(value: string): (r: string)
    ensures |DigitsOf(value)| < 4 ==> r == value
  {
    var parts := Groups(FirstMatch(DigitsOf(value)));
    if |parts| > 0 then Join(parts, " ") else value
  }

  /**
   The shape of a formatted number: digits, with a single space at positions 4, 9 and 14 and
   nowhere else, never ending in a space; so every group has four digits except the last, which
   has one to four, and the whole fits the field's 19 characters.
   */
  predicate CardLayout(r: string)
  {
    && 1 <= |r| <= 19
    && |r| % 5 != 0
    && forall i :: 0 <= i < |r| ==> (r[i] == ' ' <==> i % 5 == 4) && (i % 5 != 4 ==> IsDigit(r[i]))
  }

  predicate AllDigits(s: string) { forall i :: 0 <= i < |s| ==> IsDigit(s[i]) }

  /** Grouping and joining a run of digits gives the layout, four digits per group. */
  lemma {:induction false} GroupedLayout(m: string)
    requires AllDigits(m) && 1 <= |m|
    ensures |Join(Groups(m), " ")| == |m| + (|m| - 1) / 4
    ensures |Join(Groups(m), " ")| % 5 != 0
    ensures var r := Join(Groups(m), " ");
      forall i :: 0 <= i < |r| ==> (r[i] == ' ' <==> i % 5 == 4) && (i % 5 != 4 ==> IsDigit(r[i]))
    decreases |m|
  {
    if |m| > 4 {
      var rest := Join(Groups(m[4..]), " ");
      GroupedLayout(m[4..]);
      assert Groups(m[4..]) != [];
      var r := Join(Groups(m), " ");
      assert r == m[..4] + " " + rest;
      forall i | 0 <= i < |r|
        ensures (r[i] == ' ' <==> i % 5 == 4) && (i % 5 != 4 ==> IsDigit(r[i]))
      {
        if i >= 5 {
          assert r[i] == rest[i - 5];
        }
      }
    }
  }

  /** Past the first four digits, the grouping is the first group, a space, and the rest. */
  lemma JoinGroupsUnfold(m: string)
    requires |m| > 4
    ensures Join(Groups(m), " ") == (m[..4] + " ") + Join(Groups(m[4..]), " ")
  {
  }

  lemma FilterSpace(keep: char -> bool)
    requires !keep(' ')
    ensures Filter(" ", keep) == []
  {
  }

  /**
   Any filter that keeps digits and drops spaces undoes the grouping: the digits come back,
   in order.
   */
  lemma {:induction false} GroupedFilter(m: string, keep: char -> bool)
    requires AllDigits(m)
    requires forall c :: IsDigit(c) ==> keep(c)
    requires !keep(' ')
    ensures Filter(Join(Groups(m), " "), keep) == m
    decreases |m|
  {
    if |m| <= 4 {
      FilterKeepsAll(m, keep);
    } else {
      assert AllDigits(m[4..]) by {
        forall i | 0 <= i < |m[4..]| ensures IsDigit(m[4..][i]) {
          assert m[4..][i] == m[i + 4];
        }
      }
      GroupedFilter(m[4..], keep);
      GroupedFilterStep(m, keep);
    }
  }

  lemma GroupedFilterStep(m: string, keep: char -> bool)
    requires |m| > 4
    requires forall i :: 0 <= i < 4 ==> keep(m[i])
    requires !keep(' ')
    requires Filter(Join(Groups(m[4..]), " "), keep) == m[4..]
    ensures Filter(Join(Groups(m), " "), keep) == m
  {
    var head, tail := m[..4], m[4..];
    FilterKeepsAll(head, keep);
    FilterSpace(keep);
    JoinGroupsUnfold(m);
    FilterGroupStep(head, Join(Groups(tail), " "), tail, keep);
    assert m == head + tail;
  }

  lemma FilterGroupStep(head: string, rest: string, tail: string, keep: char -> bool)
    requires Filter(head, keep) == head
    requires Filter(" ", keep) == []
    requires Filter(rest, keep) == tail
    ensures Filter((head + " ") + rest, keep) == head + tail
  {
    FilterAppend(head + " ", rest, keep);
    FilterAppend(head, " ", keep);
    assert head + [] == head;
  }

  lemma DigitsOfAreDigits(s: string)
    ensures AllDigits(DigitsOf(s))
  {
    var d := DigitsOf(s);
    FilterMultiset(s, IsDigit);
    forall i | 0 <= i < |d| ensures IsDigit(d[i]) {
      assert d[i] in d;
    }
  }

  /** Fewer than four digits: the input is returned as typed. */
  lemma FormatFewDigits(value: string)
    requires |DigitsOf(value)| < 4
    ensures FormatCardNumber(value) == value
  {
  }

  /**
   Four digits or more: the output has the card layout, and taking its spaces out (or keeping
   only its digits) gives the first min(16, n) digits of the input.
   */
  lemma FormatManyDigits(value: string)
    requires |DigitsOf(value)| >= 4
    ensures CardLayout(FormatCardNumber(value))
    ensures WithoutSpaces(FormatCardNumber(value)) == DigitsOf(value)[..Min(16, |DigitsOf(value)|)]
    ensures DigitsOf(FormatCardNumber(value)) == DigitsOf(value)[..Min(16, |DigitsOf(value)|)]
  {
    var m := FirstMatch(DigitsOf(value));
    DigitsOfAreDigits(value);
    assert AllDigits(m);
    GroupedLayout(m);
    GroupedFilter(m, IsNotSpace);
    GroupedFilter(m, IsDigit);
  }

  /** Formatting a formatted value changes nothing. */
  lemma FormatIdempotent(value: string)
    ensures FormatCardNumber(FormatCardNumber(value)) == FormatCardNumber(value)
  {
    if |DigitsOf(value)| >= 4 {
      var m := FirstMatch(DigitsOf(value));
      FormatManyDigits(value);
      assert DigitsOf(FormatCardNumber(value)) == m;
      assert FirstMatch(m) == m;
    } else {
      FormatFewDigits(value);
    }
  }

  // ---------------------------------------------------------------------------------------------
  // The form

  datatype PaymentMethod = Card | CashOnDelivery | BankAccount

  /** The named text inputs and the country select. */
  datatype Field =
    | Email | FirstName | LastName | Address | Apartment | City | State | ZipCode | Country
    | CardName | CardNumber | ExpDate | Cvv
    | AccountName | AccountNumber | RoutingNumber | BankName

  datatype FormData = FormData(
    email: string, firstName: string, lastName: string, address: string, apartment: string,
    city: string, state: string, zipCode: string, country: string,
    paymentMethod: PaymentMethod,
    cardName: string, cardNumber: string, expDate: string, cvv: string,
    accountName: string, accountNumber: string, routingNumber: string, bankName: string)

  const InitialForm: FormData := FormData(
    "", "", "", "", "", "", "", "", "United States", Card, "", "", "", "", "", "", "", "")

  function Get(form: FormData, f: Field): string
  {
    match f
    case Email => form.email
    case FirstName => form.firstName
    case LastName => form.lastName
    case Address => form.address
    case Apartment => form.apartment
    case City => form.city
    case State => form.state
    case ZipCode => form.zipCode
    case Country => form.country
    case CardName => form.cardName
    case CardNumber => form.cardNumber
    case ExpDate => form.expDate
    case Cvv => form.cvv
    case AccountName => form.accountName
    case AccountNumber => form.accountNumber
    case RoutingNumber => form.routingNumber
    case BankName => form.bankName
  }

  /** Two forms that agree on every field and on the payment method are the same form. */
  lemma FormExtensionality(a: FormData, b: FormData)
    requires forall f :: Get(a, f) == Get(b, f)
    requires a.paymentMethod == b.paymentMethod
    ensures a == b
  {
    assert Get(a, Email) == Get(b, Email) && Get(a, FirstName) == Get(b, FirstName);
    assert Get(a, LastName) == Get(b, LastName) && Get(a, Address) == Get(b, Address);
    assert Get(a, Apartment) == Get(b, Apartment) && Get(a, City) == Get(b, City);
    assert Get(a, State) == Get(b, State) && Get(a, ZipCode) == Get(b, ZipCode);
    assert Get(a, Country) == Get(b, Country) && Get(a, CardName) == Get(b, CardName);
    assert Get(a, CardNumber) == Get(b, CardNumber) && Get(a, ExpDate) == Get(b, ExpDate);
    assert Get(a, Cvv) == Get(b, Cvv) && Get(a, AccountName) == Get(b, AccountName);
    assert Get(a, AccountNumber) == Get(b, AccountNumber);
    assert Get(a, RoutingNumber) == Get(b, RoutingNumber) && Get(a, BankName) == Get(b, BankName);
  }

  /** `handleInputChange`: `{...formData, [name]: value}`. */
  function HandleInputChange(form: FormData, name: Field, value: string): (r: FormData)
    ensures Get(r, name) == value
    ensures forall g :: g != name ==> Get(r, g) == Get(form, g)
    ensures r.paymentMethod == form.paymentMethod
  {
    match name
    case Email => form.(email := value)
    case FirstName => form.(firstName := value)
    case LastName => form.(lastName := value)
    case Address => form.(address := value)
    case Apartment => form.(apartment := value)
    case City => form.(city := value)
    case State => form.(state := value)
    case ZipCode => form.(zipCode := value)
    case Country => form.(country := value)
    case CardName => form.(cardName := value)
    case CardNumber => form.(cardNumber := value)
    case ExpDate => form.(expDate := value)
    case Cvv => form.(cvv := value)
    case AccountName => form.(accountName := value)
    case AccountNumber => form.(accountNumber := value)
    case RoutingNumber => form.(routingNumber := value)
    case BankName => form.(bankName := value)
  }

  /** `handleCardNumberChange`: the card number field receives the formatted input. */
  function HandleCardNumberChange(form: FormData, raw: string): (r: FormData)
    ensures r.cardNumber == FormatCardNumber(raw)
    ensures forall g :: g != CardNumber ==> Get(r, g) == Get(form, g)
    ensures r.paymentMethod == form.paymentMethod
  {
    HandleInputChange(form, CardNumber, FormatCardNumber(raw))
  }

  /** `handlePaymentMethodChange`: only the payment method changes. */
  function HandlePaymentMethodChange(form: FormData, choice: PaymentMethod): (r: FormData)
    ensures r.paymentMethod == choice
    ensures forall g :: Get(r, g) == Get(form, g)
  {
    form.(paymentMethod := choice)
  }

  /**
   The handler's contract pins the form down: any form in which the named field holds the typed
   value and everything else is as before is the handler's result.
   */
  lemma HandleInputChangeUnique(form: FormData, name: Field, value: string, other: FormData)
    requires Get(other, name) == value
    requires forall g :: g != name ==> Get(other, g) == Get(form, g)
    requires other.paymentMethod == form.paymentMethod
    ensures other == HandleInputChange(form, name, value)
  {
    FormExtensionality(other, HandleInputChange(form, name, value));
  }

  /** Setting a field to the value it already holds leaves the form as it was. */
  lemma HandleInputChangeSameValue(form: FormData, name: Field)
    ensures HandleInputChange(form, name, Get(form, name)) == form
  {
  }

  // ---------------------------------------------------------------------------------------------
  // The page

  datatype CheckoutState = CheckoutState(
    items: Cart, form: FormData, loading: bool, orderComplete: bool, stored: Stored)

  /** The mount effect: the summary lists the stored cart; missing or corrupt shows nothing. */
  function Mount(stored: Stored): (s: CheckoutState)
    ensures s.items == ShoppingCart.Mount(stored).items
    ensures !s.loading && !s.orderComplete && s.form == InitialForm
  {
    CheckoutState(Load(stored), InitialForm, false, false, stored)
  }

  /** The order summary uses the cart page's subtotal, 10% tax and total. */
  function SummaryTotals(s: CheckoutState): (t: Totals)
    ensures t == ComputeTotals(s.items)
    ensures s.items == [] ==> t == Totals(0, 0, 0)
  {
    ShoppingCart.PageTotals(ShoppingCart.CartPage(s.items, s.stored))
  }

  lemma SummaryMatchesCartPage(stored: Stored)
    ensures SummaryTotals(Mount(stored)) == ShoppingCart.PageTotals(ShoppingCart.Mount(stored))
  {
  }

  /** `handleSubmit`, up to the simulated processing delay. */
  function Submit(s: CheckoutState): (r: CheckoutState)
    ensures r.loading
    ensures r.orderComplete == s.orderComplete
    ensures r.items == s.items && r.form == s.form && r.stored == s.stored
  {
    s.(loading := true)
  }

  /** The end of the processing delay: the order is complete and the stored cart is removed. */
  function CompleteOrder(s: CheckoutState): (r: CheckoutState)
    ensures !r.loading && r.orderComplete
    ensures r.stored == Missing
    ensures Load(r.stored) == []
    ensures r.form == s.form
  {
    s.(loading := false, orderComplete := true, stored := Missing)
  }

  /**
   After a completed order every view that reads storage starts over: the cart page is empty,
   its totals are zero, and the badge falls to zero and disappears.
   */
  lemma CheckoutEmptiesCart(s: CheckoutState, badge: CartIcon.BadgeState)
    ensures var done := CompleteOrder(Submit(s));
      && ShoppingCart.Mount(done.stored).items == []
      && ShoppingCart.PageTotals(ShoppingCart.Mount(done.stored)) == Totals(0, 0, 0)
      && CartIcon.UpdateCartCount(badge, done.stored).state.itemCount == 0
      && !CartIcon.ShowBadge(CartIcon.UpdateCartCount(badge, done.stored).state.itemCount)
  {
  }
}

=== FILE: collection.dfy ===
/**
 The collection page: the grid's add-to-cart button (merge by id, one unit at a time) and the
 effect that filters the catalog by category and an inclusive price range, then sorts by price.
 */
module Collection {
  import opened Sequences
  import opened CartModel

  datatype PriceRange = PriceRange(text: string, min: int, max: int)

  /** The price-range buttons. Both bounds are inclusive, so adjacent ranges share their boundary. */
  const PriceRanges: seq<PriceRange> := [
    PriceRange("All Prices", 0, 10000),
    PriceRange("Under $600", 0, 600),
    PriceRange("$600 - $800", 600, 800),
    PriceRange("$800 - $1000", 800, 1000),
    PriceRange("Over $1000", 1000, 10000)
  ]

  datatype SortOrder = NoSort | LowToHigh | HighToLow

  /** The grid's button: read the stored cart (corrupt counts as empty), add one unit, write back. */
  function AddToCart(stored: Stored, product: Product): (r: Stored)
    ensures r.Saved?
    ensures HasId(Load(stored), product.id) ==> |r.items| == |Load(stored)|
    ensures !HasId(Load(stored), product.id) ==> r.items == Load(stored) + [LineItem(product, 1)]
    ensures stored.Corrupt? || stored.Missing? ==> r.items == [LineItem(product, 1)]
  {
    Saved(MergeAdd(Load(stored), product, 1))
  }

  /** Adding an already present product raises that line by one and leaves every other line alone. */
  lemma AddToCartPresent(stored: Stored, product: Product)
    requires stored.Saved? && HasId(stored.items, product.id)
    ensures var k := FindIndex(stored.items, product.id);
      var r := AddToCart(stored, product).items;
      && |r| == |stored.items|
      && r[k] == stored.items[k].(quantity := stored.items[k].quantity + 1)
      && forall j :: 0 <= j < |r| && j != k ==> r[j] == stored.items[j]
  {
  }

  /** A cart with one line per product keeps that shape under the grid's add. */
  lemma AddToCartKeepsUniqueIds(stored: Stored, product: Product)
    requires UniqueIds(Load(stored))
    ensures UniqueIds(AddToCart(stored, product).items)
    ensures ItemCount(AddToCart(stored, product).items) == ItemCount(Load(stored)) + 1
  {
    MergeAddKeepsUniqueIds(Load(stored), product, 1);
    MergeAddItemCount(Load(stored), product, 1);
  }

  // ---------------------------------------------------------------------------------------------
  // Filtering and sorting

  predicate InCategory(category: string, p: Product)
  {
    category == "All" || p.category == category
  }

  predicate InRange(range: PriceRange, p: Product)
  {
    range.min <= p.price && p.price <= range.max
  }

  function ByCategory(products: seq<Product>, category: string): (r: seq<Product>)
  {
    if category != "All" then Filter(products, (p: Product) => p.category == category) else products
  }

  function ByPrice(products: seq<Product>, range: PriceRange): seq<Product>
  {
    Filter(products, (p: Product) => range.min <= p.price && p.price <= range.max)
  }

  /** Whether `a` may come before `b` in the chosen order. */
  predicate InOrder(order: SortOrder, a: Product, b: Product)
  {
    match order
    case NoSort => true
    case LowToHigh => a.price <= b.price
    case HighToLow => a.price >= b.price
  }

  predicate Sorted(order: SortOrder, s: seq<Product>)
  {
    forall i, j :: 0 <= i < j < |s| ==> InOrder(order, s[i], s[j])
  }

  /** Puts `x` before the first element it may precede: `x` stays ahead of equal prices. */
  function Insert(order: SortOrder, x: Product, s: seq<Product>): (r: seq<Product>)
    requires order != NoSort
    ensures multiset(r) == multiset(s) + multiset{x}
    decreases |s|
  {
    if |s| == 0 then [x]
    else if InOrder(order, x, s[0]) then [x] + s
    else
      assert s == [s[0]] + s[1..];
      [s[0]] + Insert(order, x, s[1..])
  }

  /** Inserting into a sorted list keeps it sorted. */
  lemma {:induction false} InsertSorted(order: SortOrder, x: Product, s: seq<Product>)
    requires order != NoSort
    requires Sorted(order, s)
    ensures Sorted(order, Insert(order, x, s))
    decreases |s|
  {
    if |s| == 0 {
    } else if InOrder(order, x, s[0]) {
      assert forall j :: 0 <= j < |s| ==> InOrder(order, x, s[j]);
      SortedCons(order, x, s);
    } else {
      var rest := Insert(order, x, s[1..]);
      assert s == [s[0]] + s[1..];
      assert multiset(s) == multiset{s[0]} + multiset(s[1..]);
      assert Sorted(order, s[1..]);
      InsertSorted(order, x, s[1..]);
      HeadPrecedesAll(order, s[0], x, s[1..], rest);
      SortedCons(order, s[0], rest);
    }
  }

  /** A sorted list stays sorted under a new head that may precede all of it. */
  lemma SortedCons(order: SortOrder, a: Product, t: seq<Product>)
    requires Sorted(order, t)
    requires forall j :: 0 <= j < |t| ==> InOrder(order, a, t[j])
    ensures Sorted(order, [a] + t)
  {
  }

  /** An element that may precede `x` and every element of `t` may precede every element of a permutation of `t` plus `x`. */
  lemma HeadPrecedesAll(order: SortOrder, a: Product, x: Product, t: seq<Product>, rest: seq<Product>)
    requires multiset(rest) == multiset(t) + multiset{x}
    requires InOrder(order, a, x)
    requires forall j :: 0 <= j < |t| ==> InOrder(order, a, t[j])
    ensures forall j :: 0 <= j < |rest| ==> InOrder(order, a, rest[j])
  {
    forall j | 0 <= j < |rest| ensures InOrder(order, a, rest[j]) {
      assert rest[j] in multiset(rest);
      if rest[j] != x {
        assert rest[j] in multiset(t);
        var m :| 0 <= m < |t| && t[m] == rest[j];
      }
    }
  }

  /** The stable price sort `Array.prototype.sort` performs with a price-difference comparator. */
  function SortBy(order: SortOrder, s: seq<Product>): (r: seq<Product>)
    requires order != NoSort
    ensures multiset(r) == multiset(s)
    ensures Sorted(order, r)
    decreases |s|
  {
    if |s| == 0 then []
    else
      assert s == [s[0]] + s[1..];
      var rest := SortBy(order, s[1..]);
      InsertSorted(order, s[0], rest);
      Insert(order, s[0], rest)
  }

  /** The two filters, category first and then price, before any sorting. */
  function Filtered(catalog: seq<Product>, category: string, range: PriceRange): seq<Product>
  {
    ByPrice(ByCategory(catalog, category), range)
  }

  /** The filters keep exactly the matching products, with their multiplicities, in catalog order. */
  lemma FilteredMatches(catalog: seq<Product>, category: string, range: PriceRange)
    ensures forall p :: multiset(Filtered(catalog, category, range))[p]
                     == if InCategory(category, p) && InRange(range, p) then multiset(catalog)[p] else 0
    ensures forall p :: p in Filtered(catalog, category, range)
                    <==> p in catalog && InCategory(category, p) && InRange(range, p)
    ensures SubseqOf(Filtered(catalog, category, range), catalog)
  {
    var byCategory := ByCategory(catalog, category);
    if category != "All" {
      FilterMultiset(catalog, (p: Product) => p.category == category);
      FilterIsSubseq(catalog, (p: Product) => p.category == category);
    } else {
      SubseqOfSelf(catalog);
    }
    FilterMultiset(byCategory, (p: Product) => range.min <= p.price && p.price <= range.max);
    FilterIsSubseq(byCategory, (p: Product) => range.min <= p.price && p.price <= range.max);
    SubseqOfTrans(Filtered(catalog, category, range), byCategory, catalog);
  }

  /** The filter-and-sort effect of the collection page. */
  function ApplyFilters(catalog: seq<Product>, category: string, range: PriceRange, order: SortOrder)
    : (r: seq<Product>)
    ensures forall p :: p in r ==> p in catalog && InCategory(category, p) && InRange(range, p)
    ensures forall p :: p in catalog && InCategory(category, p) && InRange(range, p) ==> p in r
    ensures forall p :: multiset(r)[p]
                     == if InCategory(category, p) && InRange(range, p) then multiset(catalog)[p] else 0
    ensures order == NoSort ==> SubseqOf(r, catalog)
    ensures Sorted(order, r)
  {
    var filtered := Filtered(catalog, category, range);
    FilteredMatches(catalog, category, range);
    var r := if order == NoSort then filtered else SortBy(order, filtered);
    assert multiset(r) == multiset(filtered);
    assert forall p :: p in r <==> p in multiset(filtered);
    r
  }

  /** The price boundaries 600, 800 and 1000 each fall into two of the ranges. */
  lemma BoundaryPricesMatchTwoRanges(p: Product)
    requires p.price == 600 || p.price == 800 || p.price == 1000
    ensures exists i, j :: 1 <= i < j < |PriceRanges| && InRange(PriceRanges[i], p) && InRange(PriceRanges[j], p)
  {
    if p.price == 600 {
      assert InRange(PriceRanges[1], p) && InRange(PriceRanges[2], p);
    } else if p.price == 800 {
      assert InRange(PriceRanges[2], p) && InRange(PriceRanges[3], p);
    } else {
      assert InRange(PriceRanges[3], p) && InRange(PriceRanges[4], p);
    }
  }
}

=== FILE: hero_carousel.dfy ===
/**
 The hero carousel on the home page: five slides, next and previous buttons (also the 3-second
 auto-advance) that are ignored while a 600 ms transition runs, dot buttons that jump to a slide,
 and a title whose words are styled alternately.
 */
module HeroCarousel {
  import opened Sequences

  /** The number of featured products, `products.length`. */
  const SlideCount: int := 5

  datatype Carousel = Carousel(index: int, isAnimating: bool)

  const Initial: Carousel := Carousel(0, false)

  /** The slide index always names one of the slides. */
  predicate Valid(c: Carousel)
  {
    0 <= c.index < SlideCount
  }

  /** `nextSlide`: ignored while animating; otherwise advance, wrapping 4 to 0, and start animating. */
  function NextSlide(c: Carousel): (r: Carousel)
    ensures c.isAnimating ==> r == c
    ensures !c.isAnimating ==> r.isAnimating
    ensures !c.isAnimating && Valid(c) ==> r.index == if c.index == SlideCount - 1 then 0 else c.index + 1
  {
    if c.isAnimating then c else Carousel((c.index + 1) % SlideCount, true)
  }

  /** `prevSlide`: ignored while animating; otherwise step back, wrapping 0 to 4, and start animating. */
  function PrevSlide(c: Carousel): (r: Carousel)
    ensures c.isAnimating ==> r == c
    ensures !c.isAnimating ==> r.isAnimating
    ensures !c.isAnimating ==> r.index == if c.index == 0 then SlideCount - 1 else c.index - 1
    ensures !c.isAnimating && Valid(c) ==> (r.index + 1) % SlideCount == c.index
  {
    if c.isAnimating then c
    else Carousel(if c.index == 0 then SlideCount - 1 else c.index - 1, true)
  }

  /** The 600 ms timer that re-enables the buttons. */
  function AnimationEnd(c: Carousel): (r: Carousel)
    ensures !r.isAnimating && r.index == c.index
  {
    c.(isAnimating := false)
  }

  /** A dot button: jump straight to slide `k`, whether or not a transition is running. */
  function SelectSlide(c: Carousel, k: int): (r: Carousel)
    requires 0 <= k < SlideCount
    ensures Valid(r) && r.index == k && r.isAnimating == c.isAnimating
  {
    c.(index := k)
  }

  /** Every operation keeps the index on a slide. */
  lemma OperationsKeepValid(c: Carousel, k: int)
    requires Valid(c)
    requires 0 <= k < SlideCount
    ensures Valid(NextSlide(c)) && Valid(PrevSlide(c)) && Valid(AnimationEnd(c))
    ensures Valid(SelectSlide(c, k))
    ensures Valid(Initial)
  {
  }

  /** Once the transition is over, previous undoes next and next undoes previous. */
  lemma NextPrevInverse(c: Carousel)
    requires Valid(c) && !c.isAnimating
    ensures PrevSlide(AnimationEnd(NextSlide(c))).index == c.index
    ensures NextSlide(AnimationEnd(PrevSlide(c))).index == c.index
  {
  }

  /** `n` advances, each after the previous transition finished. */
  function Advance(c: Carousel, n: nat): Carousel
    decreases n
  {
    if n == 0 then c else Advance(AnimationEnd(NextSlide(c)), n - 1)
  }

  /** The auto-advance visits the slides in order and returns to the start every five steps. */
  lemma {:induction false} AdvanceIndex(c: Carousel, n: nat)
    requires Valid(c) && !c.isAnimating
    ensures Advance(c, n).index == (c.index + n) % SlideCount
    ensures Advance(c, SlideCount).index == c.index
    decreases n
  {
    if n > 0 {
      var next := AnimationEnd(NextSlide(c));
      AdvanceIndex(next, n - 1);
      assert (next.index + (n - 1)) % SlideCount == (c.index + n) % SlideCount;
    }
    AdvanceFive(c);
  }

  lemma AdvanceFive(c: Carousel)
    requires Valid(c) && !c.isAnimating
    ensures Advance(c, SlideCount).index == c.index
  {
  }

  // ---------------------------------------------------------------------------------------------
  // The title

  /** `name.split(" ")`: consecutive or outer spaces give empty words; there is always a word. */
  function Split(s: string): (words: seq<string>)
    ensures |words| >= 1
    ensures forall i :: 0 <= i < |words| ==> ' ' !in words[i]
    decreases |s|
  {
    if |s| == 0 then [""]
    else
      var rest := Split(s[1..]);
      if s[0] == ' ' then [""] + rest
      else
        assert forall i :: 1 <= i < |rest| ==> ([[s[0]] + rest[0]] + rest[1..])[i] == rest[i];
        [[s[0]] + rest[0]] + rest[1..]
  }

  /** Joining the words with single spaces gives the name back. */
  lemma {:induction false} JoinSplit(s: string)
    ensures Join(Split(s), " ") == s
    decreases |s|
  {
    if |s| > 0 {
      var rest := Split(s[1..]);
      JoinSplit(s[1..]);
      if s[0] == ' ' {
        assert ([""] + rest)[1..] == rest;
      } else {
        var words := [[s[0]] + rest[0]] + rest[1..];
        if |rest| > 1 {
          assert words[1..] == rest[1..];
          assert Join(rest, " ") == rest[0] + " " + Join(rest[1..], " ");
        }
      }
    }
  }

  /** Splitting words that contain no space and are joined by single spaces gives the words back. */
  lemma {:induction false} SplitJoin(words: seq<string>)
    requires |words| >= 1
    requires forall i :: 0 <= i < |words| ==> ' ' !in words[i]
    ensures Split(Join(words, " ")) == words
    decreases |Join(words, " ")|
  {
    var s := Join(words, " ");
    if |words[0]| == 0 {
      if |words| > 1 {
        assert s == " " + Join(words[1..], " ");
        assert s[1..] == Join(words[1..], " ");
        SplitJoin(words[1..]);
        assert words == [""] + words[1..];
      }
    } else {
      var first := words[0];
      assert first == [first[0]] + first[1..];
      assert first[0] != ' ' by {
        assert first[0] in first;
      }
      var shorter := [first[1..]] + words[1..];
      assert ' ' !in first[1..];
      assert shorter[1..] == words[1..];
      if |words| > 1 {
        assert s == first + " " + Join(words[1..], " ");
        assert Join(shorter, " ") == first[1..] + " " + Join(words[1..], " ");
      }
      assert s == [first[0]] + Join(shorter, " ");
      assert s[1..] == Join(shorter, " ");
      SplitJoin(shorter);
      assert words == [[first[0]] + shorter[0]] + shorter[1..];
    }
  }

  /** One rendered word: its text, followed by a space unless it is the last, and its style. */
  datatype Span = Span(text: string, solid: bool)

  /** The title's spans: even-numbered words solid white, odd-numbered words outlined. */
  function TitleSpans(name: string): (spans: seq<Span>)
    ensures |spans| == |Split(name)|
    ensures forall i :: 0 <= i < |spans| ==> (spans[i].solid <==> i % 2 == 0)
    ensures forall i :: 0 <= i < |spans| ==>
              spans[i].text == Split(name)[i] + (if i < |spans| - 1 then " " else "")
  {
    var words := Split(name);
    seq(|words|, i requires 0 <= i < |words| =>
          Span(words[i] + (if i < |words| - 1 then " " else ""), i % 2 == 0))
  }

  function Texts(spans: seq<Span>): string
    decreases |spans|
  {
    if |spans| == 0 then "" else spans[0].text + Texts(spans[1..])
  }

  lemma {:induction false} TextsOfWords(words: seq<string>, spans: seq<Span>)
    requires |words| >= 1 && |spans| == |words|
    requires forall i :: 0 <= i < |words| ==>
               spans[i].text == words[i] + (if i < |words| - 1 then " " else "")
    ensures Texts(spans) == Join(words, " ")
    decreases |words|
  {
    if |words| > 1 {
      TextsOfWords(words[1..], spans[1..]);
    } else {
      assert spans[0].text == words[0];
      assert Texts(spans[1..]) == "";
    }
  }

  /** The rendered spans spell the product name exactly. */
  lemma TitleSpellsName(name: string)
    ensures Texts(TitleSpans(name)) == name
  {
    TextsOfWords(Split(name), TitleSpans(name));
    JoinSplit(name);
  }
}

=== FILE: product_detail.dfy ===
/**
 The product detail page: the product lookup from the `id` query parameter (through JavaScript's
 `parseInt`), the quantity stepper, and the add-to-cart button that merges `quantity` units.
 */
module ProductDetail {
  import opened Wrappers
  import opened CartModel
  import opened Sequences

  // ---------------------------------------------------------------------------------------------
  // parseInt(s) with no radix argument

  /** The white space and line terminators `parseInt` skips before the number. */
  predicate IsJsSpace(c: char)
  {
    var u := c as int;
    || (0x09 <= u <= 0x0D)                      // tab, line feed, vertical tab, form feed, return
    || u == 0x20 || u == 0xA0 || u == 0x1680    // space, no-break space, ogham space mark
    || (0x2000 <= u <= 0x200A)                  // en quad .. hair space
    || u == 0x2028 || u == 0x2029               // line and paragraph separators
    || u == 0x202F || u == 0x205F || u == 0x3000
    || u == 0xFEFF                              // byte order mark
  }

  function TrimStart(s: string): (r: string)
    ensures |r| <= |s| && r == s[|s| - |r|..]
    ensures forall i :: 0 <= i < |s| - |r| ==> IsJsSpace(s[i])
    ensures |r| > 0 ==> !IsJsSpace(r[0])
    ensures |s| > 0 && !IsJsSpace(s[0]) ==> r == s
    decreases |s|
  {
    if |s| > 0 && IsJsSpace(s[0]) then
      var r := TrimStart(s[1..]);
      assert forall i :: 1 <= i < |s| - |r| ==> s[i] == s[1..][i - 1];
      r
    else s
  }

  /** The value of `c` as a digit in base `radix` (10 or 16), or -1. */
  function DigitValue(c: char, radix: nat): int
  {
    if '0' <= c <= '9' then c as int - '0' as int
    else if radix == 16 && 'a' <= c <= 'f' then c as int - 'a' as int + 10
    else if radix == 16 && 'A' <= c <= 'F' then c as int - 'A' as int + 10
    else -1
  }

  predicate IsRadixDigit(c: char, radix: nat) { DigitValue(c, radix) >= 0 }

  /** The longest prefix of `s` made of digits of base `radix`. */
  function DigitPrefix(s: string, radix: nat): (r: string)
    ensures |r| <= |s| && r == s[..|r|]
    ensures forall i :: 0 <= i < |r| ==> IsRadixDigit(r[i], radix)
    ensures |r| < |s| ==> !IsRadixDigit(s[|r|], radix)
    decreases |s|
  {
    if |s| > 0 && IsRadixDigit(s[0], radix) then [s[0]] + DigitPrefix(s[1..], radix) else []
  }

  /** The value of a digit string, most significant digit first. */
  function DigitsValue(ds: string, radix: nat): int
    decreases |ds|
  {
    if |ds| == 0 then 0
    else DigitsValue(ds[..|ds| - 1], radix) * radix + DigitValue(ds[|ds| - 1], radix)
  }

  /**
   `parseInt(s)`: skip leading white space, read an optional sign, switch to base 16 after a
   "0x" or "0X" prefix, and read the longest digit prefix. No digits is `NaN`, modelled as None.
   */
  function ParseInt(s: string): (r: Option<int>)
    ensures TrimStart(s) == "" ==> r.None?
    ensures var t := TrimStart(s);
      |t| > 0 && t[0] != '-' && t[0] != '+' && !IsRadixDigit(t[0], 10) ==> r.None?
  {
    var t := TrimStart(s);
    if |t| > 0 && t[0] == '-' then Negate(ParseMagnitude(t[1..]))
    else if |t| > 0 && t[0] == '+' then ParseMagnitude(t[1..])
    else ParseMagnitude(t)
  }

  function Negate(m: Option<int>): Option<int>
  {
    if m.None? then None else Some(-m.value)
  }

  /** The unsigned part of `parseInt`: an optional "0x"/"0X" prefix, then the longest digit prefix. */
  function ParseMagnitude(u: string): Option<int>
  {
    var hex := |u| >= 2 && u[0] == '0' && (u[1] == 'x' || u[1] == 'X');
    var radix := if hex then 16 else 10;
    var digits := DigitPrefix(if hex then u[2..] else u, radix);
    if |digits| == 0 then None else Some(DigitsValue(digits, radix))
  }

  /** The decimal rendering of a natural number. */
  function NatToString(n: nat): (s: string)
    ensures |s| > 0
    ensures forall i :: 0 <= i < |s| ==> '0' <= s[i] <= '9'
    decreases n
  {
    var d := ['0' + (n % 10) as char];
    if n < 10 then d else NatToString(n / 10) + d
  }

  /** `${id}` for an integer id, as in the links the collection grid navigates to. */
  function IntToString(i: int): string
  {
    if i < 0 then "-" + NatToString(-i) else NatToString(i)
  }

  lemma {:induction false} NatToStringValue(n: nat)
    ensures DigitsValue(NatToString(n), 10) == n
    ensures DigitPrefix(NatToString(n), 10) == NatToString(n)
    decreases n
  {
    var s := NatToString(n);
    AllDigitsPrefix(s);
    if n >= 10 {
      NatToStringValue(n / 10);
      assert s[..|s| - 1] == NatToString(n / 10);
    }
  }

  lemma AllDigitsPrefix(s: string)
    requires forall i :: 0 <= i < |s| ==> '0' <= s[i] <= '9'
    ensures DigitPrefix(s, 10) == s
  {
  }

  /** Reading back the id a product link carries gives that id. */
  lemma ParseIntOfIntToString(i: int)
    ensures ParseInt(IntToString(i)) == Some(i)
  {
    if i < 0 {
      var n: nat := -i;
      assert IntToString(i) == "-" + NatToString(n);
      ParseNegative(n);
    } else {
      var n: nat := i;
      assert IntToString(i) == NatToString(n);
      ParseNonNegative(n);
    }
  }

  lemma ParseNegative(n: nat)
    ensures ParseInt("-" + NatToString(n)) == Some(-(n as int))
  {
    var digits := NatToString(n);
    var s := "-" + digits;
    NoLeadingSpace(s);
    assert s[1..] == digits;
    MagnitudeOfNatToString(n);
  }

  lemma ParseNonNegative(n: nat)
    ensures ParseInt(NatToString(n)) == Some(n)
  {
    var digits := NatToString(n);
    NoLeadingSpace(digits);
    MagnitudeOfNatToString(n);
  }

  /** A string that starts with a sign or a digit is its own trimmed form. */
  lemma NoLeadingSpace(s: string)
    requires |s| > 0 && (s[0] == '-' || '0' <= s[0] <= '9')
    ensures TrimStart(s) == s
  {
    var u := s[0] as int;
    assert u == 0x2D || 0x30 <= u <= 0x39;
    assert !IsJsSpace(s[0]);
  }

  /** The decimal digits of `n` read back as `n`. */
  lemma MagnitudeOfNatToString(n: nat)
    ensures ParseMagnitude(NatToString(n)) == Some(n)
  {
    var digits := NatToString(n);
    NatToStringValue(n);
    assert !(|digits| >= 2 && digits[0] == '0' && (digits[1] == 'x' || digits[1] == 'X'));
  }

  // ---------------------------------------------------------------------------------------------
  // Product lookup

  /** Ids are the catalog's key: no two entries share one. */
  predicate DistinctIds(catalog: seq<Product>)
  {
    DistinctKeys(catalog, IdOf)
  }

  function IdOf(p: Product): int { p.id }

  /** `catalog.find(p => p.id === id)`: the first entry with that id. */
  function FindProduct(catalog: seq<Product>, id: int): (r: Option<Product>)
    ensures r.Some? ==> r.value in catalog && r.value.id == id
    ensures r.None? <==> forall i :: 0 <= i < |catalog| ==> catalog[i].id != id
    decreases |catalog|
  {
    if |catalog| == 0 then None
    else if catalog[0].id == id then Some(catalog[0])
    else FindProduct(catalog[1..], id)
  }

  /** With distinct ids, the lookup of a catalog entry's id finds that entry. */
  lemma FindProductOfMember(catalog: seq<Product>, p: Product)
    requires DistinctIds(catalog)
    requires p in catalog
    ensures FindProduct(catalog, p.id) == Some(p)
  {
  }

  /**
   The lookup effect: with a non-empty `id` parameter that parses to the id of a catalog entry,
   that entry becomes the page's product; in every other case the product stays as it was.
   */
  function LoadProduct(current: Option<Product>, idParam: Option<string>, catalog: seq<Product>)
    : (r: Option<Product>)
    ensures r != current ==>
      && idParam.Some? && idParam.value != ""
      && ParseInt(idParam.value).Some?
      && r.Some? && r.value in catalog && r.value.id == ParseInt(idParam.value).value
    ensures idParam.None? || ParseInt(idParam.value).None? ==> r == current
    ensures idParam.Some? && ParseInt(idParam.value).Some?
            && (forall i :: 0 <= i < |catalog| ==> catalog[i].id != ParseInt(idParam.value).value)
            ==> r == current
    ensures idParam.Some? && idParam.value != "" && ParseInt(idParam.value).Some?
            && (exists i :: 0 <= i < |catalog| && catalog[i].id == ParseInt(idParam.value).value)
            ==> r.Some? && r.value in catalog && r.value.id == ParseInt(idParam.value).value
  {
    if idParam.None? || idParam.value == "" then current
    else
      match ParseInt(idParam.value)
      case None => current
      case Some(id) =>
        match FindProduct(catalog, id)
        case Some(p) => Some(p)
        case None => current
  }

  /** With distinct ids, following a product's link shows exactly that product. */
  lemma LoadProductFromLink(catalog: seq<Product>, p: Product, current: Option<Product>)
    requires DistinctIds(catalog)
    requires p in catalog
    ensures LoadProduct(current, Some(IntToString(p.id)), catalog) == Some(p)
  {
    ParseIntOfIntToString(p.id);
    FindProductOfMember(catalog, p);
    assert |NatToString(if p.id < 0 then -p.id else p.id)| > 0;
  }

  // ---------------------------------------------------------------------------------------------
  // Quantity stepper and add to cart

  /** The stepper's initial value. */
  const InitialQuantity: int := 1

  /** The "-" button: never below 1. */
  function Decrement(quantity: int): (r: int)
    ensures r >= 1
    ensures quantity > 1 ==> r == quantity - 1
    ensures quantity <= 1 ==> r == 1
  {
    if quantity - 1 >= 1 then quantity - 1 else 1
  }

  /** The "+" button. */
  function Increment(quantity: int): (r: int)
    ensures r == quantity + 1
  {
    quantity + 1
  }

  /** A run of stepper presses: true for "+", false for "-". */
  function Presses(quantity: int, presses: seq<bool>): int
    decreases |presses|
  {
    if |presses| == 0 then quantity
    else Presses(if presses[0] then Increment(quantity) else Decrement(quantity), presses[1..])
  }

  /** Whatever the user presses, the quantity handed to add-to-cart is at least 1. */
  lemma {:induction false} PressesStayPositive(quantity: int, presses: seq<bool>)
    requires quantity >= 1
    ensures Presses(quantity, presses) >= 1
    decreases |presses|
  {
    if |presses| > 0 {
      PressesStayPositive(if presses[0] then Increment(quantity) else Decrement(quantity), presses[1..]);
    }
  }

  /** From the stepper's initial value, the quantity handed to add-to-cart is at least 1. */
  lemma StepperStaysPositive(presses: seq<bool>)
    ensures Presses(InitialQuantity, presses) >= 1
  {
    PressesStayPositive(InitialQuantity, presses);
  }


  /**
   `handleAddToCart`: without a loaded product nothing is written; otherwise the stored cart
   (corrupt counts as empty) gets `quantity` more units of the product and is written back.
   */
  function HandleAddToCart(product: Option<Product>, quantity: int, stored: Stored): (r: Stored)
    ensures product.None? ==> r == stored
    ensures product.Some? ==> r.Saved?
    ensures product.Some? && !HasId(Load(stored), product.value.id) ==>
              r.items == Load(stored) + [LineItem(product.value, quantity)]
    ensures product.Some? && HasId(Load(stored), product.value.id) ==> |r.items| == |Load(stored)|
  {
    match product
    case None => stored
    case Some(p) => Saved(MergeAdd(Load(stored), p, quantity))
  }

  /** The add raises the product's total by the selected quantity and changes no other product. */
  lemma HandleAddToCartQuantities(p: Product, quantity: int, stored: Stored, id: int)
    ensures QuantityOf(HandleAddToCart(Some(p), quantity, stored).items, id)
         == QuantityOf(Load(stored), id) + (if id == p.id then quantity else 0)
    ensures HasId(Load(stored), p.id) ==>
      var k := FindIndex(Load(stored), p.id);
      var r := HandleAddToCart(Some(p), quantity, stored).items;
      && r[k].product == Load(stored)[k].product
      && r[k].quantity == Load(stored)[k].quantity + quantity
      && forall j :: 0 <= j < |r| && j != k ==> r[j] == Load(stored)[j]
  {
    MergeAddQuantityOf(Load(stored), p, quantity, id);
  }

  /** A corrupt stored cart is replaced by a cart holding only the new line. */
  lemma HandleAddToCartOverCorrupt(p: Product, quantity: int)
    ensures HandleAddToCart(Some(p), quantity, Corrupt) == Saved([LineItem(p, quantity)])
  {
  }

  /** The stored cart keeps one positive line per product under the page's add. */
  lemma HandleAddToCartKeepsInvariant(product: Option<Product>, quantity: int, stored: Stored)
    requires UniqueIds(Load(stored)) && PositiveQuantities(Load(stored))
    requires quantity >= 1
    ensures UniqueIds(Load(HandleAddToCart(product, quantity, stored)))
    ensures PositiveQuantities(Load(HandleAddToCart(product, quantity, stored)))
  {
  }
}

=== FILE: sequences.dfy ===
/**
 Generic sequence helpers shared by the storefront components: the `Array.prototype.filter`
 of the source, an order-preserving subsequence relation, and the `reduce` sums.
 */
module Sequences {

  /** `s.filter(keep)`: the elements of `s` that satisfy `keep`, in their original order. */
  function Filter<T>(s: seq<T>, keep: T -> bool): (r: seq<T>)
    ensures |r| <= |s|
    decreases |s|
  {
    if |s| == 0 then [] else (if keep(s[0]) then [s[0]] else []) + Filter(s[1..], keep)
  }

  /** The filter keeps exactly the elements that satisfy `keep`, each as often as it occurs. */
  lemma {:induction false} FilterMultiset<T(!new)>(s: seq<T>, keep: T -> bool)
    ensures forall x :: multiset(Filter(s, keep))[x] == if keep(x) then multiset(s)[x] else 0
    ensures forall x :: x in Filter(s, keep) <==> x in s && keep(x)
    decreases |s|
  {
    if |s| > 0 {
      FilterMultiset(s[1..], keep);
      assert s == [s[0]] + s[1..];
    }
  }

  /** Filtering distributes over concatenation, so it keeps the relative order of what it keeps. */
  lemma {:induction false} FilterAppend<T>(a: seq<T>, b: seq<T>, keep: T -> bool)
    ensures Filter(a + b, keep) == Filter(a, keep) + Filter(b, keep)
    decreases |a|
  {
    if |a| == 0 {
      assert a + b == b;
    } else {
      var head := if keep(a[0]) then [a[0]] else [];
      assert (a + b)[0] == a[0];
      assert (a + b)[1..] == a[1..] + b;
      assert Filter(a + b, keep) == head + Filter(a[1..] + b, keep);
      FilterAppend(a[1..], b, keep);
      assert Filter(a, keep) == head + Filter(a[1..], keep);
    }
  }

  /** A filter that rejects nothing returns its input unchanged. */
  lemma {:induction false} FilterKeepsAll<T>(s: seq<T>, keep: T -> bool)
    requires forall i :: 0 <= i < |s| ==> keep(s[i])
    ensures Filter(s, keep) == s
    decreases |s|
  {
    if |s| > 0 {
      FilterKeepsAll(s[1..], keep);
      assert s == [s[0]] + s[1..];
    }
  }

  /** `a` can be obtained from `b` by deleting elements (greedy matching is complete). */
  predicate SubseqOf<T(==)>(a: seq<T>, b: seq<T>)
    decreases |b|
  {
    if |a| == 0 then true
    else if |b| == 0 then false
    else if a[0] == b[0] then SubseqOf(a[1..], b[1..])
    else SubseqOf(a, b[1..])
  }

  lemma {:induction false} SubseqOfSelf<T>(s: seq<T>)
    ensures SubseqOf(s, s)
    decreases |s|
  {
    if |s| > 0 {
      SubseqOfSelf(s[1..]);
    }
  }

  /** Putting an element in front of `b` keeps every subsequence of `b` a subsequence. */
  lemma {:induction false} SubseqOfCons<T>(a: seq<T>, x: T, b: seq<T>)
    requires SubseqOf(a, b)
    ensures SubseqOf(a, [x] + b)
    decreases |b|, 1
  {
    assert ([x] + b)[1..] == b;
    if |a| > 0 && a[0] == x {
      SubseqOfDropHead(a, b);
    }
  }

  /** Dropping the first element of a subsequence leaves a subsequence. */
  lemma {:induction false} SubseqOfDropHead<T>(a: seq<T>, b: seq<T>)
    requires |a| > 0
    requires SubseqOf(a, b)
    ensures SubseqOf(a[1..], b)
    decreases |b|, 0
  {
    assert b == [b[0]] + b[1..];
    if a[0] == b[0] {
      SubseqOfCons(a[1..], b[0], b[1..]);
    } else {
      SubseqOfDropHead(a, b[1..]);
      SubseqOfCons(a[1..], b[0], b[1..]);
    }
  }

  /** The result of a filter is an order-preserving subsequence of its input. */
  lemma {:induction false} FilterIsSubseq<T>(s: seq<T>, keep: T -> bool)
    ensures SubseqOf(Filter(s, keep), s)
    decreases |s|
  {
    if |s| > 0 {
      var rest := Filter(s[1..], keep);
      FilterIsSubseq(s[1..], keep);
      assert s == [s[0]] + s[1..];
      if keep(s[0]) {
        var r := [s[0]] + rest;
        assert Filter(s, keep) == r;
        assert r[0] == s[0] && r[1..] == rest;
      } else {
        assert Filter(s, keep) == rest;
        SubseqOfCons(rest, s[0], s[1..]);
      }
    }
  }

  /** Being a subsequence is transitive. */
  lemma {:induction false} SubseqOfTrans<T>(a: seq<T>, b: seq<T>, c: seq<T>)
    requires SubseqOf(a, b) && SubseqOf(b, c)
    ensures SubseqOf(a, c)
    decreases |c|
  {
    if |a| > 0 {
      assert c == [c[0]] + c[1..];
      if b[0] == c[0] {
        if a[0] == b[0] {
          SubseqOfTrans(a[1..], b[1..], c[1..]);
        } else {
          SubseqOfTrans(a, b[1..], c[1..]);
          SubseqOfCons(a, c[0], c[1..]);
        }
      } else {
        SubseqOfTrans(a, b, c[1..]);
        SubseqOfCons(a, c[0], c[1..]);
      }
    }
  }

  /** Every element of a subsequence is an element of the sequence. */
  lemma {:induction false} SubseqOfMembers<T>(a: seq<T>, b: seq<T>)
    requires SubseqOf(a, b)
    ensures forall x :: x in a ==> x in b
    decreases |b|
  {
    if |a| > 0 {
      assert b == [b[0]] + b[1..];
      if a[0] == b[0] {
        SubseqOfMembers(a[1..], b[1..]);
        assert a == [a[0]] + a[1..];
      } else {
        SubseqOfMembers(a, b[1..]);
      }
    }
  }

  /** No two elements share a key. */
  predicate DistinctKeys<T, K(==)>(s: seq<T>, key: T -> K)
  {
    forall i, j :: 0 <= i < j < |s| ==> key(s[i]) != key(s[j])
  }

  /** A subsequence of a sequence with distinct keys has distinct keys. */
  lemma {:induction false} SubseqOfDistinctKeys<T, K>(a: seq<T>, b: seq<T>, key: T -> K)
    requires SubseqOf(a, b) && DistinctKeys(b, key)
    ensures DistinctKeys(a, key)
    decreases |b|
  {
    if |a| > 0 {
      assert DistinctKeys(b[1..], key) by {
        forall i, j | 0 <= i < j < |b[1..]| ensures key(b[1..][i]) != key(b[1..][j]) {
          assert b[1..][i] == b[i + 1] && b[1..][j] == b[j + 1];
        }
      }
      if a[0] == b[0] {
        SubseqOfDistinctKeys(a[1..], b[1..], key);
        SubseqOfMembers(a[1..], b[1..]);
        forall j | 0 < j < |a| ensures key(a[0]) != key(a[j]) {
          assert a[1..][j - 1] == a[j];
          assert a[j] in b[1..];
          var m :| 0 <= m < |b[1..]| && b[1..][m] == a[j];
          assert b[m + 1] == a[j];
        }
      } else {
        SubseqOfDistinctKeys(a, b[1..], key);
      }
    }
  }

  /** `parts.join(sep)`. */
  function Join<T>(parts: seq<seq<T>>, sep: seq<T>): seq<T>
    decreases |parts|
  {
    if |parts| == 0 then []
    else if |parts| == 1 then parts[0]
    else parts[0] + sep + Join(parts[1..], sep)
  }

  function Identity<T>(x: T): T { x }

  /** `s.reduce((sum, x) => sum + f(x), 0)`. */
  function SumOf<T>(s: seq<T>, f: T -> int): int
    decreases |s|
  {
    if |s| == 0 then 0 else f(s[0]) + SumOf(s[1..], f)
  }

  lemma {:induction false} SumOfAppend<T>(a: seq<T>, b: seq<T>, f: T -> int)
    ensures SumOf(a + b, f) == SumOf(a, f) + SumOf(b, f)
    decreases |a|
  {
    if |a| == 0 {
      assert a + b == b;
    } else {
      assert (a + b)[1..] == a[1..] + b;
      SumOfAppend(a[1..], b, f);
    }
  }

  /** Replacing one element changes the sum by the difference of the two terms only. */
  lemma {:induction false} SumOfUpdate<T>(s: seq<T>, k: nat, x: T, f: T -> int)
    requires k < |s|
    ensures SumOf(s[k := x], f) == SumOf(s, f) - f(s[k]) + f(x)
    decreases k
  {
    if k > 0 {
      assert s[k := x][1..] == s[1..][k - 1 := x];
      SumOfUpdate(s[1..], k - 1, x, f);
    }
  }

  /** A sum whose every term is non-negative is non-negative. */
  lemma {:induction false} SumOfNonNegative<T>(s: seq<T>, f: T -> int)
    requires forall i :: 0 <= i < |s| ==> f(s[i]) >= 0
    ensures SumOf(s, f) >= 0
    decreases |s|
  {
    if |s| > 0 {
      SumOfNonNegative(s[1..], f);
    }
  }
}

=== FILE: shopping_cart.dfy ===
/**
 The cart page: it mirrors the stored cart into its own list, changes a line's quantity (ignoring
 values below 1), removes lines by product id, and shows subtotal, tax and total.
 */
module ShoppingCart {
  import opened Sequences
  import opened CartModel

  /** `item.product.id !== id`. */
  function NotId(id: int): LineItem -> bool
  {
    (line: LineItem) => line.product.id != id
  }

  /** `updateQuantity`: below 1 nothing changes; otherwise every line of `id` gets `quantity`. */
  function UpdateQuantity(cart: Cart, id: int, quantity: int): (r: Cart)
    ensures quantity < 1 ==> r == cart
    ensures |r| == |cart|
    ensures forall i :: 0 <= i < |cart| ==> r[i].product == cart[i].product
    ensures forall i :: 0 <= i < |cart| && cart[i].product.id != id ==> r[i] == cart[i]
    ensures quantity >= 1 ==> forall i :: 0 <= i < |cart| && cart[i].product.id == id ==> r[i].quantity == quantity
  {
    if quantity < 1 then cart
    else seq(|cart|, i requires 0 <= i < |cart| =>
               if cart[i].product.id == id then cart[i].(quantity := quantity) else cart[i])
  }

  /**
   `removeItem`'s filter: no line of `id` is left, every other line is kept as often as it occurs,
   and the kept lines keep their order.
   */
  function RemoveItem(cart: Cart, id: int): (r: Cart)
    ensures !HasId(r, id)
    ensures forall line :: line in r <==> line in cart && line.product.id != id
    ensures forall line :: multiset(r)[line] == if line.product.id != id then multiset(cart)[line] else 0
    ensures SubseqOf(r, cart)
    ensures !HasId(cart, id) ==> r == cart
  {
    RemoveFilterFacts(cart, id);
    FilterMultiset(cart, NotId(id));
    Filter(cart, NotId(id))
  }

  lemma RemoveFilterFacts(cart: Cart, id: int)
    ensures SubseqOf(Filter(cart, NotId(id)), cart)
    ensures !HasId(cart, id) ==> Filter(cart, NotId(id)) == cart
    ensures !HasId(Filter(cart, NotId(id)), id)
    ensures forall line :: line in Filter(cart, NotId(id)) <==> line in cart && line.product.id != id
  {
    var r := Filter(cart, NotId(id));
    FilterMultiset(cart, NotId(id));
    forall i | 0 <= i < |r| ensures r[i].product.id != id {
      assert r[i] in r;
    }
    FilterIsSubseq(cart, NotId(id));
    if !HasId(cart, id) {
      FilterKeepsAll(cart, NotId(id));
    }
  }

  // ---------------------------------------------------------------------------------------------
  // Effects on the cart invariant and the sums

  lemma UpdateQuantityKeepsInvariant(cart: Cart, id: int, quantity: int)
    requires UniqueIds(cart) && PositiveQuantities(cart)
    ensures UniqueIds(UpdateQuantity(cart, id, quantity))
    ensures PositiveQuantities(UpdateQuantity(cart, id, quantity))
  {
  }

  /**
   Setting a quantity replaces the total ordered of that product by `quantity` per line and
   leaves every other product's total unchanged.
   */
  lemma {:induction false} UpdateQuantityQuantityOf(cart: Cart, id: int, quantity: int, other: int)
    requires quantity >= 1
    ensures QuantityOf(UpdateQuantity(cart, id, quantity), other)
         == if other == id then quantity * LineCount(cart, id) else QuantityOf(cart, other)
    decreases |cart|
  {
    if |cart| > 0 {
      var r := UpdateQuantity(cart, id, quantity);
      assert r[1..] == UpdateQuantity(cart[1..], id, quantity);
      UpdateQuantityQuantityOf(cart[1..], id, quantity, other);
    }
  }

  /** On a cart with one line per product, the badge count moves by the change of that line. */
  lemma UpdateQuantityItemCount(cart: Cart, id: int, quantity: int)
    requires UniqueIds(cart)
    requires HasId(cart, id)
    requires quantity >= 1
    ensures ItemCount(UpdateQuantity(cart, id, quantity))
         == ItemCount(cart) - cart[FindIndex(cart, id)].quantity + quantity
  {
    var k := FindIndex(cart, id);
    var r := UpdateQuantity(cart, id, quantity);
    assert r == cart[k := cart[k].(quantity := quantity)];
    SumOfUpdate(cart, k, cart[k].(quantity := quantity), Quantity);
  }

  lemma RemoveItemKeepsInvariant(cart: Cart, id: int)
    requires UniqueIds(cart) && PositiveQuantities(cart)
    ensures UniqueIds(RemoveItem(cart, id)) && PositiveQuantities(RemoveItem(cart, id))
  {
    var r := RemoveItem(cart, id);
    assert DistinctKeys(cart, ProductId);
    SubseqOfDistinctKeys(r, cart, ProductId);
    forall i | 0 <= i < |r| ensures r[i].quantity >= 1 {
      assert r[i] in cart;
    }
  }

  /**
   Removing a product takes its whole quantity off the badge count and leaves every other
   product's total unchanged.
   */
  lemma {:induction false} RemoveItemQuantities(cart: Cart, id: int, other: int)
    ensures QuantityOf(RemoveItem(cart, id), other) == if other == id then 0 else QuantityOf(cart, other)
    ensures ItemCount(RemoveItem(cart, id)) == ItemCount(cart) - QuantityOf(cart, id)
    decreases |cart|
  {
    if |cart| > 0 {
      RemoveItemQuantities(cart[1..], id, other);
      var rest := RemoveItem(cart[1..], id);
      if cart[0].product.id == id {
        assert RemoveItem(cart, id) == rest;
      } else {
        var r := RemoveItem(cart, id);
        assert r == [cart[0]] + rest;
        assert r[1..] == rest;
      }
    }
  }

  // ---------------------------------------------------------------------------------------------
  // The page

  /** The page's list of lines and the value in storage. */
  datatype CartPage = CartPage(items: Cart, stored: Stored)

  /** The page mirrors storage: what it shows is what a fresh load would read. */
  predicate Synced(page: CartPage)
  {
    Load(page.stored) == page.items
  }

  /** The mount effect: a missing or unparseable entry shows the empty cart. */
  function Mount(stored: Stored): (page: CartPage)
    ensures Synced(page)
    ensures stored.Missing? || stored.Corrupt? ==> page.items == []
    ensures page.stored == stored
  {
    CartPage(Load(stored), stored)
  }

  /** The "-" and "+" buttons: a new quantity below 1 is ignored, anything else is saved. */
  function ChangeQuantity(page: CartPage, id: int, quantity: int): (r: CartPage)
    ensures quantity < 1 ==> r == page
    ensures quantity >= 1 ==> r.items == UpdateQuantity(page.items, id, quantity)
    ensures quantity >= 1 ==> r.stored == Saved(r.items)
    ensures Synced(page) ==> Synced(r)
  {
    if quantity < 1 then page
    else
      var updated := UpdateQuantity(page.items, id, quantity);
      CartPage(updated, Saved(updated))
  }

  /**
   The removal as it should take effect when its timer fires: filter the lines the page holds
   at that moment and save them.
   */
  function RemoveAfterDelay(page: CartPage, id: int): (r: CartPage)
    ensures r.items == RemoveItem(page.items, id)
    ensures r.stored == Saved(r.items)
    ensures !HasId(r.items, id)
    ensures SubseqOf(r.items, page.items)
  {
    var remaining := RemoveItem(page.items, id);
    CartPage(remaining, Saved(remaining))
  }

  /**
   Two removals in a row leave neither product and leave the total ordered of every other
   product as it was.
   */
  lemma RemovalsAccumulate(page: CartPage, a: int, b: int, other: int)
    requires other != a && other != b
    ensures var r := RemoveAfterDelay(RemoveAfterDelay(page, a), b);
      && !HasId(r.items, a) && !HasId(r.items, b) && Synced(r)
      && QuantityOf(r.items, other) == QuantityOf(page.items, other)
  {
    RemoveItemQuantities(page.items, a, other);
    RemoveItemQuantities(RemoveItem(page.items, a), b, other);
  }

  /**
   The removal as written: the timer's callback filters the list captured when the button was
   clicked, so whatever happened to the page in the meantime is overwritten.
   */
  function RemoveAfterDelayAsWritten(page: CartPage, captured: Cart, id: int): (r: CartPage)
    ensures !HasId(r.items, id)
    ensures r.items == RemoveItem(captured, id)
  {
    var remaining := RemoveItem(captured, id);
    CartPage(remaining, Saved(remaining))
  }

  /**
   Removing two lines within the 300 ms window brings the first one back: both callbacks
   captured the same two-line list, and the second one writes that list minus its own line.
   */
  lemma StaleRemovalResurrectsLine(a: LineItem, b: LineItem)
    requires a.product.id != b.product.id
    ensures var page := CartPage([a, b], Saved([a, b]));
      var afterFirst := RemoveAfterDelayAsWritten(page, page.items, a.product.id);
      var afterSecond := RemoveAfterDelayAsWritten(afterFirst, page.items, b.product.id);
      afterSecond.items == [a] && HasId(afterSecond.items, a.product.id)
  {
    var cart := [a, b];
    assert RemoveItem(cart, b.product.id) == [a] by {
      assert Filter(cart, NotId(b.product.id)) == [a] + Filter([b], NotId(b.product.id));
      assert Filter([b], NotId(b.product.id)) == [] + Filter([], NotId(b.product.id));
    }
  }

  /** The summary panel: subtotal, 10% tax and total of what the page shows. */
  function PageTotals(page: CartPage): (t: Totals)
    ensures t == ComputeTotals(page.items)
    ensures page.items == [] ==> t == Totals(0, 0, 0)
  {
    ComputeTotals(page.items)
  }
}

=== FILE: trending_shoes.dfy ===
/** The trending section's heart buttons: a list of favourite product ids toggled one id at a time. */
module TrendingShoes {
  import opened Sequences

  function Other(id: int): int -> bool
  {
    (x: int) => x != id
  }

  predicate NoDuplicates(favorites: seq<int>)
  {
    DistinctKeys(favorites, Identity)
  }

  /** `toggleFavorite`: a present id is removed everywhere, an absent one appended at the end. */
  function ToggleFavorite(favorites: seq<int>, id: int): (r: seq<int>)
    ensures id in r <==> id !in favorites
    ensures forall x :: x != id ==> (x in r <==> x in favorites)
    ensures id in favorites ==> multiset(r)[id] == 0
    ensures id !in favorites ==> r == favorites + [id]
  {
    FilterMultiset(favorites, Other(id));
    if id in favorites then Filter(favorites, Other(id)) else favorites + [id]
  }

  /** Toggling twice restores exactly which ids are favourites. */
  lemma ToggleTwiceMembership(favorites: seq<int>, id: int)
    ensures forall x :: x in ToggleFavorite(ToggleFavorite(favorites, id), id) <==> x in favorites
  {
  }

  /** For a heart that was off, on-then-off gives back the very same list. */
  lemma ToggleTwiceRestores(favorites: seq<int>, id: int)
    requires id !in favorites
    ensures ToggleFavorite(ToggleFavorite(favorites, id), id) == favorites
  {
    var once := favorites + [id];
    assert forall i :: 0 <= i < |favorites| ==> Other(id)(favorites[i]);
    FilterKeepsAll(favorites, Other(id));
    FilterAppend(favorites, [id], Other(id));
    assert Filter([id], Other(id)) == [] + Filter([id][1..], Other(id));
  }

  /** A list without duplicates stays without duplicates. */
  lemma ToggleKeepsNoDuplicates(favorites: seq<int>, id: int)
    requires NoDuplicates(favorites)
    ensures NoDuplicates(ToggleFavorite(favorites, id))
  {
    if id in favorites {
      var r := Filter(favorites, Other(id));
      FilterIsSubseq(favorites, Other(id));
      assert DistinctKeys(favorites, Identity);
      SubseqOfDistinctKeys(r, favorites, Identity);
    }
  }
}

=== FILE: wrappers.dfy ===
/** The optional value the components use where the source has `null`, `undefined` or `NaN`. */
module Wrappers {

  datatype Option<+T> = None | Some(value: T)
}
